=== FILE: README.md ===
# Salesforce tool-calling agent: a Dafny model of its core

This project models the logic of a question-answering agent. A language model answers a question about a Salesforce org. During the conversation it may ask for three read-only lookup tools: fetch an Apex class by name, search class and trigger names, and describe an sObject. The model covers four components:

- **Result cache** (`tool_cache.dfy`, module `ToolCache`). This is a map from key to `(value, expiry)` with a default TTL taken from `CACHE_TTL_SECONDS`. Expiry is lazy: a read strictly after the expiry instant misses and evicts the entry. An unset or zero per-call TTL falls back to the default.
- **Tool handlers** (`mcp_tools.dfy`, module `McpTools`). `get_apex_class` and `get_object_schema` read through the cache. Their keys are `apex_class:<name>` and `describe:<name>`, and their TTLs are 300 and 600 seconds. They answer from the cache only when the cached value is truthy. `search_metadata` never uses the cache. Once `client()` hands out a handle and `q` is present, it sends the class query and then, if that one succeeds, the trigger query. The backend is a pair of oracle functions. Every request a handler makes is recorded in `Services.trace`.
- **Session manager** (`auth.dfy`, module `Auth`). The state is a handle (absent or present) and `expires_at`. The handle is reused while `now < expires_at - 60`. Otherwise exactly one login strategy runs, either client credentials or the password flow, chosen by configuration. The model keeps the source's exact bookkeeping of which field changes on which failure.
- **Agent loop** (`query_llm.dfy`, module `Agent`). `run_agent` makes at most `max_iterations` model calls. `_execute_tool_calls` dispatches each proposed call in order through the `TOOL_FUNCS` table. An unknown tool or a handler exception becomes an `{"error": ...}` result. Each call produces one tool message and one log entry. The model is a sequence of responses. The tool layer is a function over a state `S`, and `ToolFuncs` instantiates it with the real handlers. The loop's shape (budget, ending, log and conversation) is proved for any `S`. That a run never raises is proved under three conditions: the model supplies a response for every iteration, every tool call's arguments decode, and the tool layer keeps an invariant under which it returns only dictionaries, lists or strings. `ToolFuncs` keeps such an invariant whenever the backend's records and describe answers are dictionaries, lists or strings.

`common.dfy` (module `Common`) holds the shared vocabulary:

- the decoded JSON values;
- Python truthiness;
- `str()` of a value;
- `int()` of a value, including the decimal parsing used for `CACHE_TTL_SECONDS`.

Tool arguments are never validated against the advertised tool schemas. `type("X", (), args)` makes every argument key an attribute. A missing argument therefore surfaces as an `AttributeError` inside the handler and becomes an error result. An extra argument is ignored, unless it is one of the namespace keys `type()` itself checks, or the arguments carry `__slots__`, which `type()` checks against every other key (see `Agent.ExtraArgumentIgnored`, `Agent.MissingArgumentBecomesError`, `Agent.QualnameMustBeString`). A token reply fails through `raise_for_status`, which raises only for statuses 400–599.

## Model

| member | source | states |
|---|---|---|
| ToolCache.FromEnvironment | cache/tool_cache.py:27 | the shared cache starts empty; its default TTL is 300 when the setting is absent, and construction fails exactly when `int()` refuses the setting |
| ToolCache.FromEnvironmentReadsSetting | cache/tool_cache.py:27 | any integer written in decimal in the setting becomes the default TTL (`int(str(n)) == n`) |
| Common.ParseIntRoundTrip | cache/tool_cache.py:27 | `int()` reads back every integer's decimal rendering |
| Common.NatToStringRoundTrip | cache/tool_cache.py:27 | the digit string of a natural number denotes that number |
| ToolCache.Get | cache/tool_cache.py:13-21 | an absent key misses and changes nothing; the entry is visible up to and including its expiry; a read strictly after expiry misses and evicts that key only; the set of live entries is unchanged by a read; other keys are untouched |
| ToolCache.Set | cache/tool_cache.py:23-24 | the key now holds the value with expiry `now + ttl`, or `now + default` when `ttl` is absent or 0; last write wins; every other key is unchanged |
| ToolCache.SetThenGetHit | cache/tool_cache.py:18-24 | a value written at `now` is read back at every instant in `[now, now + ttl]` without changing the cache |
| ToolCache.SetThenGetExpired | cache/tool_cache.py:18-20 | read after `now + ttl`, the value misses and its entry is removed |
| ToolCache.ReplayPreservesEntry | cache/tool_cache.py:13-24 | reads and writes of other keys, and reads of the key no later than its expiry, leave its entry exactly as it was |
| ToolCache.ReadBackWithinTtl | cache/tool_cache.py:13-24 | after `set(k, v, ttl)` at `s`, `get(k)` at any `t` in `[s, s + ttl]` returns `v` whatever other calls (none writing `k`, none after `t`) came in between |
| Auth.Fresh | ingestion/auth.py:10-12 | a new manager has no handle and expiry 0, so no instant lets it reuse a handle |
| Auth.ChooseStrategy | ingestion/auth.py:41-44 | client credentials exactly when both `SF_CLIENT_ID` and `SF_CLIENT_SECRET` are non-empty, otherwise the password flow |
| Auth.LoginClientCredentials | ingestion/auth.py:23-36 | a failed token exchange (no answer, 4xx/5xx status, non-JSON or non-object body, missing `access_token` or `instance_url`, non-integer `expires_in`) raises and leaves the expiry alone; an accepted reply sets the expiry to `now + expires_in` (3000 when absent) before the client is built from `instance_url` and `access_token` |
| Auth.Client | ingestion/auth.py:38-46 | no login exactly when a handle is present and `now < expires_at - 60`, and then the same handle and state come back; otherwise exactly the configured strategy runs; a password login hands out exactly what the password-flow constructor produced and sets `expires_at = now + 3000`, and a failed one changes nothing; an accepted token reply hands out exactly what the client constructor produced from `instance_url` and `access_token`; a rejected token reply changes nothing; a returned handle is the stored one, and a failure never clears the handle |
| Auth.FirstCallLogsIn | ingestion/auth.py:38-46 | the first call on a fresh manager always logs in, with the configured strategy |
| Auth.PasswordRefreshIsReused | ingestion/auth.py:39-45 | right after a password-flow login, a call at the same instant reuses the handle |
| Auth.CredentialsRefreshIsReusedIff | ingestion/auth.py:35-42 | right after a client-credentials login, a call at the same instant reuses the handle if and only if `expires_in > 60` |
| Auth.HandedOutHandleIsLive | ingestion/auth.py:38-46 | a handed-out handle is one the manager would reuse at that instant, except after a client-credentials login granting 60 seconds or less |
| Auth.ShortTokenIsNotReused | ingestion/auth.py:35-40 | a token granting 30 seconds yields a handle that the next call at the same instant refuses to reuse |
| Auth.ConnectFailureKeepsOldHandle | ingestion/auth.py:35-42 | when the token is accepted but building the client raises, the old handle stays with the new expiry, and the next call hands the old handle out without logging in |
| McpTools.Attr | agent/query_llm.py:15-17 | a handler's argument is read as an attribute of `type("X", (), args)`: present exactly when the key is present, otherwise an AttributeError |
| McpTools.ApexClassSoql | context/mcp_tools.py:21 | the class name sits verbatim, unescaped, between the fixed select text and `' LIMIT 1` |
| McpTools.ClassSearchSoql | context/mcp_tools.py:41 | the class select text, then the search terms verbatim inside the class-name LIKE pattern, then `%' LIMIT 100` |
| McpTools.TriggerSearchSoql | context/mcp_tools.py:42 | the trigger select text, then the search terms verbatim inside the trigger-name LIKE pattern, then `%' LIMIT 100` |
| McpTools.Records | context/mcp_tools.py:24 | `res.get("records", [])`: the `records` value of a dictionary reply, an empty list when the key is absent, an AttributeError for a non-dictionary reply |
| McpTools.FirstOrEmpty | context/mcp_tools.py:25 | the first record of a non-empty list, `{}` for an empty or falsy one |
| McpTools.Connect | context/mcp_tools.py:17 | the handler gets exactly the handle or exception `client()` produces, and the manager's state afterwards; a reusable session is used as is, with nothing recorded; otherwise one login request of the configured strategy is recorded; the cache is untouched |
| McpTools.GetApexClass | context/mcp_tools.py:12-27 | a missing `name` raises before anything is touched; a live truthy entry under `apex_class:<name>` is returned with no backend request and nothing changed; otherwise the backend is asked, the session is whatever `client()` left (on every path, raising or not), and a returned value is the first record (or `{}`) of the class query's reply, sent with the handle `client()` produced, and is cached under the key with expiry `now + 300`; no other cache key changes |
| McpTools.SearchTerms | context/mcp_tools.py:38 | a null or otherwise falsy `q` searches for `""`; a string `q` is used as is |
| McpTools.SearchMetadata | context/mcp_tools.py:35-46 | never reads or writes the cache; the session is always whatever `client()` left; a returned value is a dictionary with exactly the keys `ApexClass` and `ApexTrigger`, holding the `records` of the class query's and the trigger query's replies for the search terms, which were sent in that order with the session's handle |
| McpTools.GetObjectSchema | context/mcp_tools.py:53-61 | a missing `object_api_name` raises before anything is touched; a live truthy entry under `describe:<name>` is returned with no backend request; otherwise the session is whatever `client()` left (on every path, raising or not), and a returned value is exactly the describe call's answer, made with the handle `client()` produced, and is cached under the key with expiry `now + 600` |
| McpTools.KeysNeverCollide | context/mcp_tools.py:13-54 | a class-lookup key never equals a describe key, whatever the arguments |
| McpTools.ApexClassSoqlInjective | context/mcp_tools.py:21 | distinct class names give distinct queries |
| McpTools.ApexClassMiss | context/mcp_tools.py:17-27 | on a miss, once `client()` hands out a handle (after a login or not) and the class query's reply has a `records` list (other reply keys are ignored), exactly that query follows the login, the first record (or `{}`) is returned and cached for 300 seconds |
| McpTools.ApexClassServedFromCache | context/mcp_tools.py:13-16 | after a truthy record is fetched, every lookup of that name within 300 seconds returns it with no backend request and no state change, whatever the backend |
| McpTools.EmptyApexClassIsRequeried | context/mcp_tools.py:15-26 | a cached `{}` is falsy, so the next lookup of that name always goes to the backend again |
| McpTools.ExpiredApexClassIsRequeried | context/mcp_tools.py:13-26 | once its 300 seconds have passed, a cached record no longer answers and the lookup goes to the backend |
| McpTools.ObjectSchemaMiss | context/mcp_tools.py:53-61 | on a miss, once `client()` hands out a handle (after a login or not) and the describe call is answered, exactly that call follows the login; its answer is returned unchanged and cached for 600 seconds, even when falsy |
| McpTools.SearchWithoutTerms | context/mcp_tools.py:37-46 | with a live session, a falsy `q` searches for `""` with exactly the two queries, class first, and for any replies carrying `records` returns both record lists under their type names, leaving the cache and session alone |
| McpTools.SearchMetadataAnswered | context/mcp_tools.py:35-46 | for any `q`, after whatever login `client()` ran, when it hands out a handle: exactly the class query and then the trigger query for `q or ""` are sent after the login, their `records` come back under `ApexClass` and `ApexTrigger`, the cache is unchanged and the session is the one `client()` left |
| McpTools.GetApexClassKeepsContainers | context/mcp_tools.py:13-27 | a class lookup returns a dictionary, list or string and caches only such values, as long as the cache and the backend's records hold only such values |
| McpTools.GetObjectSchemaKeepsContainers | context/mcp_tools.py:53-61 | a describe returns a dictionary, list or string and caches only such values, as long as the cache and the REST answers hold only such values |
| Agent.LookupTool | agent/query_llm.py:14-18 | exactly the three advertised tool names resolve, each to the handler of that name |
| Agent.LookupToolName | agent/query_llm.py:14-18 | every tool is found under its own name |
| Agent.CallHandler | agent/query_llm.py:14-18 | each tool name dispatches to its own handler with the argument dictionary; a non-dictionary argument, a non-string `__qualname__` or any `__classcell__` makes `type()` raise before the handler runs, with the state unchanged; a missing argument key makes the call raise; the search tool never touches the cache |
| Agent.ExtraArgumentIgnored | agent/query_llm.py:15-17 | adding an argument key the handler does not read changes nothing, unless the key is one `type()` interprets (`__qualname__`, `__slots__`, `__classcell__`) or the arguments carry `__slots__`; unknown keys are never rejected |
| Agent.NamespaceError | agent/query_llm.py:15-17 | of `type()`'s checks on the namespace, the `__qualname__` and `__classcell__` ones reject the argument dictionary exactly when `__qualname__` is present and not a string, or `__classcell__` is present |
| Agent.QualnameMustBeString | agent/query_llm.py:15-17 | `{"name": ..., "__qualname__": 5}` is answered with `type __qualname__ must be a str, not int`, logged with `ok` false, and nothing is looked up |
| Agent.ToolFuncsKeepContainers | agent/query_llm.py:14-18 | when the backend's records and describe answers are dictionaries, lists or strings, the real tool table keeps every cached value such a value and returns only such values |
| Agent.HandlersTurnCompletes | agent/query_llm.py:92-111 | with the real handlers and such a backend, a turn whose arguments all decode always completes, whatever handler raises |
| Agent.HandlersEveryTurnStop | agent/query_llm.py:114-155 | with the real handlers and such a backend, a model that asks for tools every turn gets exactly `max_iterations` calls, then the sentinel answer with no token count and one log entry per dispatched call |
| Agent.MissingArgumentBecomesError | agent/query_llm.py:96-110 | a call without its required argument is not refused up front; the handler's AttributeError (or the error `type()` raised first) is answered as an error result and logged with `ok` false |
| Agent.NoErrorKey | agent/query_llm.py:110 | for a dictionary result, `ok` is exactly "no `error` key"; the test succeeds exactly for dictionaries, lists and strings and raises for `None`, booleans and numbers |
| Agent.ExecuteOne | agent/query_llm.py:93-110 | undecodable arguments raise out of the turn; an unknown tool is answered with `Unknown tool <name>` without running anything or changing state; a known tool's handler runs on the decoded arguments in the current state, the turn continues in the state it leaves, and its return value (or `{"error": str(e)}`) is the tool message's result; an answered call gets a tool message with its id and name and a log entry with its name, arguments and the `ok` flag |
| Agent.HandlerErrorBecomesResult | agent/query_llm.py:98-101 | a handler exception becomes the result `{"error": str(e)}`, logged as failed |
| Agent.ExecuteToolCalls | agent/query_llm.py:88-111 | a completed turn yields exactly one tool message and one log entry per proposed call, in proposal order, each answering its call; a call with undecodable arguments makes the turn raise |
| Agent.ExecuteToolCallsDispatches | agent/query_llm.py:92-111 | a completed turn answers each call in order in the state the previous call left: the i-th tool message and log entry are exactly what answering the i-th call produces, and the turn ends in the state after the last call |
| Agent.ExecuteToolCallsCompletes | agent/query_llm.py:98-101 | with decodable arguments and a tool layer that keeps an invariant under which it returns containers, every turn completes in a state that still satisfies the invariant: unknown tools and handler exceptions never stop the remaining calls |
| Agent.RunAgent | agent/query_llm.py:114-155 | the loop computes exactly the recursive definition of a run |
| Agent.RunFromShape | agent/query_llm.py:121-155 | from any iteration on, the run keeps the budget, the log-follows-calls and conversation-length invariants, and ends either on a response without tool calls or with the sentinel |
| Agent.RunAgentShape | agent/query_llm.py:114-155 | at most `max(max_iterations, 0)` model calls; the run ends on the first response without tool calls (answer `content or ""`, its token count) or after exactly the budget of tool rounds (sentinel answer, no token count); the log lists every dispatched call of those rounds in order; the conversation starts with system prompt and question, then for each round the assistant message with that response's content and calls followed by one tool message per call with its id and name, in order |
| Agent.NoBudgetNoModelCall | agent/query_llm.py:149-155 | with `max_iterations <= 0` the model is never called and the sentinel answer comes back with an empty log |
| Agent.DirectAnswer | agent/query_llm.py:142-148 | a first response without tool calls ends the run after one model call, with its content as the answer and an empty log |
| Agent.RunFromCompletes | agent/query_llm.py:121-141 | with enough responses, decodable arguments and a tool layer that keeps an invariant under which it returns containers, the run always ends with a reply |
| Agent.ToolsEveryTurnStops | agent/query_llm.py:149-155 | for any tool layer that keeps an invariant under which it returns containers, a model that asks for tools every turn gets exactly `max_iterations` calls, then the sentinel answer with no token count and one log entry per dispatched call |
| Agent.OneRoundThenAnswer | agent/query_llm.py:130-148 | one tool round followed by a direct answer returns that answer, its token count and the round's log after two model calls |
| Agent.ClassLookupScenario | agent/query_llm.py:114-148 | "What does class Foo do?": a `get_apex_class(name="Foo")` call served by the backend, then an answer, yields that answer and one log entry with `ok` true |
| Agent.UnreachableSearchScenario | agent/query_llm.py:114-148 | `search_metadata(q="Acct")` with a failing login is logged with `ok` false and the run continues to the model's answer |

## Left out

- HTTP routes, the websocket stub, metrics and startup logging (`app.py`, `api/`) only forward to `run_agent` and are not modelled.
- `cache/metadata_index.py` is a placeholder with nothing to state and is not modelled.
- The OpenAI call is an oracle sequence of responses. The model name, the temperature and the advertised JSON schemas (`TOOLS`) are not modelled, because only the provider sees them. A call past the end of the sequence stands for a failing provider call, which raises out of the run.
- `json.dumps` of results and `model_dump` of tool calls are not modelled. Tool messages carry the result value and assistant messages carry the calls themselves.
- `duration_ms` is always `None` and is omitted from `Agent.Reply`.
- `json.loads` of tool arguments is an oracle result: `Err` stands for undecodable arguments, which raise out of the run as in the source. JSON floating-point numbers are not modelled.
- Time is an integer number of seconds, so `time.time()` and `int(time.time())` are the same value. All clock reads within one handler call see one instant. `Agent.ToolFuncs` runs every tool call of a run at one instant; the cache and session lemmas cover the behaviour over time.
- The password-flow constructor, the token POST (including its 20-second timeout) and the client constructor are oracles in `Auth.Login`. They give the same outcome each time they are asked within one `Backend` value.
- `simple_salesforce` and the query language are not modelled: the backend is a pair of oracle functions.
- Common.PyStr: lists and dictionaries render as fixed placeholders rather than Python's `repr`, so the keys and queries built from such arguments are not exact.
- Common.ParseInt: `int()` also accepts surrounding whitespace, underscores between digits and non-ASCII digits; these are not accepted here.
- Exception texts (`str(e)`) follow Python's wording where it is fixed and are approximated elsewhere, for example the HTTP error text.
- Agent.NamespaceError: `type()` also rejects a `__slots__` argument whose slot names are invalid or clash with other argument keys (for example `{"name": "Foo", "__slots__": ["name"]}`); that check is not modelled.
- Agent.CallHandler: a `__slots__` argument makes `type()` validate the slot names and reject conflicts with other argument keys; the model does not check `__slots__` and runs the handler.
- Concurrent access to the shared cache and session manager is not modelled, because the source has no synchronisation.
- Agent.RunAgentShape: the `ok` flags in the log and the results in the tool messages depend on the handlers, so across rounds the lemma states names, ids and arguments only. Within one turn, `Agent.ExecuteToolCallsDispatches` states them.

=== FILE: auth.dfy ===
/**
 * The backend session manager: one handle (absent or present) and the
 * instant it is considered to expire. `client()` hands out the current
 * handle while it has more than a minute left; otherwise it runs exactly
 * one login strategy, chosen by configuration, and records a new expiry.
 *
 * The HTTP token exchange and the client constructor are oracles: the
 * token endpoint's reply is a value and the constructor is a function that
 * either yields a handle of the abstract type `H` or raises.
 */
module Auth {
  import opened Common

  /** The settings that decide which login strategy runs (`SF_CLIENT_ID`,
      `SF_CLIENT_SECRET`); `None` is an unset variable. */
  datatype Config = Config(clientId: Option<string>, clientSecret: Option<string>)

  /** `os.getenv(name)` is truthy: set and non-empty. */
  predicate IsSet(v: Option<string>) {
    v.Some? && |v.value| > 0
  }

  datatype Strategy = ClientCredentials | PasswordFlow

  /** Client credentials when both settings are non-empty, the password flow
      otherwise. */
  function ChooseStrategy(cfg: Config): (s: Strategy)
    ensures s == ClientCredentials <==> IsSet(cfg.clientId) && IsSet(cfg.clientSecret)
  {
    if IsSet(cfg.clientId) && IsSet(cfg.clientSecret) then ClientCredentials else PasswordFlow
  }

  /** `_sf` and `_expires_at`. */
  datatype Session<H> = Session(handle: Option<H>, expiresAt: int)

  /** Seconds before expiry at which a handle is no longer handed out. */
  const SafetyMargin: int := 60
  /** Lifetime assumed for a password-flow login. */
  const PasswordFlowLifetime: int := 3000
  /** Lifetime assumed when the token reply carries no `expires_in`. */
  const DefaultExpiresIn: int := 3000

  /** The manager as constructed: no handle, expiry 0. */
  function Fresh<H>(): (s: Session<H>)
    ensures s.handle.None? && s.expiresAt == 0
    ensures forall now :: !Reusable(s, now)
  {
    Session(None, 0)
  }

  /** The current handle may be handed out at `now` without logging in. */
  predicate Reusable<H>(s: Session<H>, now: int) {
    s.handle.Some? && now < s.expiresAt - SafetyMargin
  }

  /** What the token endpoint answered: no answer at all, or a status code
      with a body that is JSON (`Some`) or not (`None`). */
  datatype TokenReply =
    | Unreachable(error: string)
    | TokenResponse(status: int, body: Option<Json>)

  /** The outside world a login talks to. */
  datatype Login<H> = Login(
    password: Result<H>,                  // the password-flow constructor
    token: TokenReply,                    // the POST to the token endpoint
    connect: (Json, Json) -> Result<H>)   // Salesforce(instance_url, session_id)

  /** `raise_for_status()` raises exactly for 4xx and 5xx statuses. */
  predicate HttpErrorStatus(status: int) {
    400 <= status < 600
  }

  /** The token reply carries everything `_login_client_credentials` reads
      before it records the new expiry. */
  predicate TokenAccepted(token: TokenReply) {
    && token.TokenResponse?
    && !HttpErrorStatus(token.status)
    && token.body.Some?
    && token.body.value.JObj?
    && "access_token" in token.body.value.fields
    && "instance_url" in token.body.value.fields
    && PyInt(ExpiresInField(token.body.value.fields)).Ok?
  }

  /** `tok.get("expires_in", 3000)`. */
  function ExpiresInField(fields: map<string, Json>): Json {
    if "expires_in" in fields then fields["expires_in"] else JInt(DefaultExpiresIn)
  }

  /** The lifetime an accepted token reply grants. */
  function TokenLifetime(token: TokenReply): int
    requires TokenAccepted(token)
  {
    PyInt(ExpiresInField(token.body.value.fields)).value
  }

  /** `str()` of the exception raised by subscripting a non-dictionary. */
  function SubscriptError(j: Json): string {
    match j
    case JArr(_) => "list indices must be integers or slices, not str"
    case JStr(_) => "string indices must be integers, not 'str'"
    case _ => "'" + TypeName(j) + "' object is not subscriptable"
  }

  /** Outcome of `_login_client_credentials`: the handle or the exception,
      and `_expires_at` afterwards. */
  datatype Exchange<H> = Exchange(result: Result<H>, expiresAt: int)

  /** `_login_client_credentials()` at time `now`, with `_expires_at`
      currently `oldExpiresAt`. */
  function LoginClientCredentials<H>(oldExpiresAt: int, now: int, token: TokenReply,
                                     connect: (Json, Json) -> Result<H>): (r: Exchange<H>)
    ensures !TokenAccepted(token) ==> r.result.Err? && r.expiresAt == oldExpiresAt
    ensures TokenAccepted(token) ==> r.expiresAt == now + TokenLifetime(token)
    ensures TokenAccepted(token) ==>
              r.result == connect(token.body.value.fields["instance_url"],
                                  token.body.value.fields["access_token"])
  {
    match token
    case Unreachable(e) => Exchange(Err(e), oldExpiresAt)
    case TokenResponse(status, body) =>
      if HttpErrorStatus(status) then
        Exchange(Err(IntToString(status) + (if status < 500 then " Client Error" else " Server Error")),
                 oldExpiresAt)
      else if body.None? then
        Exchange(Err("Expecting value: line 1 column 1 (char 0)"), oldExpiresAt)
      else if !body.value.JObj? then
        Exchange(Err(SubscriptError(body.value)), oldExpiresAt)
      else
        var fields := body.value.fields;
        if "access_token" !in fields then Exchange(Err("'access_token'"), oldExpiresAt)
        else if "instance_url" !in fields then Exchange(Err("'instance_url'"), oldExpiresAt)
        else
          match PyInt(ExpiresInField(fields))
          case Err(e) => Exchange(Err(e), oldExpiresAt)
          case Ok(lifetime) =>
            Exchange(connect(fields["instance_url"], fields["access_token"]), now + lifetime)
  }

  /** Result of `client()`: the handle or the exception, the manager's state
      afterwards, and which login ran (`None` when the handle was reused). */
  datatype Acquired<H> = Acquired(result: Result<H>, session: Session<H>, attempt: Option<Strategy>)

  /** `SFConnectionManager.client()` at time `now`. */
  function Client<H>(s: Session<H>, cfg: Config, now: int, login: Login<H>): (r: Acquired<H>)
    ensures r.attempt.None? <==> Reusable(s, now)
    ensures r.attempt.None? ==> r.result == Ok(s.handle.value) && r.session == s
    ensures r.attempt.Some? ==> r.attempt.value == ChooseStrategy(cfg)
    ensures r.result.Ok? ==> r.session.handle == Some(r.result.value)
    ensures r.result.Err? ==> r.session.handle == s.handle
    ensures r.attempt == Some(PasswordFlow) ==>
              && r.result == login.password
              && (r.result.Ok? ==> r.session.expiresAt == now + PasswordFlowLifetime)
              && (r.result.Err? ==> r.session == s)
    ensures r.attempt == Some(ClientCredentials) ==>
              && (!TokenAccepted(login.token) ==> r.result.Err? && r.session == s)
              && (TokenAccepted(login.token) ==> r.session.expiresAt == now + TokenLifetime(login.token))
              && (TokenAccepted(login.token) ==>
                    r.result == login.connect(login.token.body.value.fields["instance_url"],
                                              login.token.body.value.fields["access_token"]))
  {
    if Reusable(s, now) then
      Acquired(Ok(s.handle.value), s, None)
    else if ChooseStrategy(cfg) == ClientCredentials then
      var x := LoginClientCredentials(s.expiresAt, now, login.token, login.connect);
      var handle := if x.result.Ok? then Some(x.result.value) else s.handle;
      Acquired(x.result, Session(handle, x.expiresAt), Some(ClientCredentials))
    else
      match login.password
      case Ok(h) => Acquired(Ok(h), Session(Some(h), now + PasswordFlowLifetime), Some(PasswordFlow))
      case Err(e) => Acquired(Err(e), s, Some(PasswordFlow))
  }

  /** The first `client()` call on a fresh manager always logs in, with the
      configured strategy. */
  lemma FirstCallLogsIn<H>(cfg: Config, now: int, login: Login<H>)
    ensures Client(Fresh<H>(), cfg, now, login).attempt == Some(ChooseStrategy(cfg))
  {
  }

  /** Right after a successful password-flow login, a second call at the
      same instant reuses the handle, whatever the login oracles would say. */
  lemma PasswordRefreshIsReused<H>(s: Session<H>, cfg: Config, now: int, login: Login<H>, later: Login<H>)
    requires !Reusable(s, now)
    requires ChooseStrategy(cfg) == PasswordFlow
    requires login.password.Ok?
    ensures var r := Client(s, cfg, now, login);
            Client(r.session, cfg, now, later) == Acquired(Ok(login.password.value), r.session, None)
  {
  }

  /** After a successful client-credentials login, a second call at the
      same instant reuses the handle exactly when the granted lifetime
      exceeds the safety margin; the code never checks that it does. */
  lemma CredentialsRefreshIsReusedIff<H>(s: Session<H>, cfg: Config, now: int, login: Login<H>, later: Login<H>)
    requires !Reusable(s, now)
    requires ChooseStrategy(cfg) == ClientCredentials
    requires TokenAccepted(login.token)
    requires login.connect(login.token.body.value.fields["instance_url"],
                           login.token.body.value.fields["access_token"]).Ok?
    ensures var r := Client(s, cfg, now, login);
            r.result.Ok? &&
            (Client(r.session, cfg, now, later).attempt.None? <==> TokenLifetime(login.token) > SafetyMargin)
  {
  }

  /** A handle `client()` returns is one it would itself hand out again at
      the same instant, unless it comes from a client-credentials login whose
      lifetime is within the safety margin. */
  lemma HandedOutHandleIsLive<H>(s: Session<H>, cfg: Config, now: int, login: Login<H>)
    requires Client(s, cfg, now, login).result.Ok?
    requires Client(s, cfg, now, login).attempt == Some(ClientCredentials) ==>
               TokenLifetime(login.token) > SafetyMargin
    ensures Reusable(Client(s, cfg, now, login).session, now)
  {
    var r := Client(s, cfg, now, login);
    if r.attempt == Some(ClientCredentials) {
      assert TokenAccepted(login.token);
    }
  }

  /** A token reply granting 30 seconds yields a handle that the very next
      call at the same instant refuses to reuse. */
  lemma ShortTokenIsNotReused<H>(cfg: Config, now: int, h: H, later: Login<H>)
    requires ChooseStrategy(cfg) == ClientCredentials
    ensures var token := TokenResponse(200, Some(JObj(map["access_token" := JStr("t"),
                                                          "instance_url" := JStr("u"),
                                                          "expires_in" := JInt(30)])));
            var r := Client(Fresh<H>(), cfg, now, Login(Err("unused"), token, (a, b) => Ok(h)));
            r.result == Ok(h) && Client(r.session, cfg, now, later).attempt.Some?
  {
  }

  /** When the token exchange succeeds but the client constructor raises, the
      new expiry is recorded while the OLD handle stays in place, so the next
      call at the same instant hands the old handle out without logging in. */
  lemma ConnectFailureKeepsOldHandle<H>(s: Session<H>, cfg: Config, now: int, login: Login<H>, later: Login<H>)
    requires s.handle.Some? && !Reusable(s, now)
    requires ChooseStrategy(cfg) == ClientCredentials
    requires TokenAccepted(login.token) && TokenLifetime(login.token) > SafetyMargin
    requires login.connect(login.token.body.value.fields["instance_url"],
                           login.token.body.value.fields["access_token"]).Err?
    ensures var r := Client(s, cfg, now, login);
            && r.result.Err?
            && r.session == Session(s.handle, now + TokenLifetime(login.token))
            && Client(r.session, cfg, now, later) == Acquired(Ok(s.handle.value), r.session, None)
  {
  }
}

=== FILE: common.dfy ===
/**
 * Values shared by every component of the agent: optional and fallible
 * results, the decoded JSON values that flow between the model, the tools
 * and the backend, and the few Python built-ins the core leans on
 * (truthiness, `str()` of a value, `int()` of a value).
 */
module Common {

  /** Python's `None`-or-value. */
  datatype Option<+T> = None | Some(value: T)

  /** A computation that either returns a value or raises an exception whose
      `str()` is `error`. */
  datatype Result<+T> = Ok(value: T) | Err(error: string)

  /** A decoded JSON document. Numbers are integers only; an object is a
      dictionary whose key order is not recorded. */
  datatype Json =
    | JNull
    | JBool(b: bool)
    | JInt(i: int)
    | JStr(s: string)
    | JArr(items: seq<Json>)
    | JObj(fields: map<string, Json>)

  /** Python truthiness of the decoded value: `None`, `False`, `0`, `""`,
      `[]` and `{}` are falsy, everything else is truthy. */
  predicate Truthy(j: Json) {
    match j
    case JNull => false
    case JBool(b) => b
    case JInt(i) => i != 0
    case JStr(s) => |s| > 0
    case JArr(xs) => |xs| > 0
    case JObj(m) => |m| > 0
  }

  /** The value supports Python's `in` test: a dictionary, a list or a
      string. */
  predicate IsContainer(j: Json) {
    j.JObj? || j.JArr? || j.JStr?
  }

  /** Python's name for the type a JSON value decodes to. */
  function TypeName(j: Json): string {
    match j
    case JNull => "NoneType"
    case JBool(_) => "bool"
    case JInt(_) => "int"
    case JStr(_) => "str"
    case JArr(_) => "list"
    case JObj(_) => "dict"
  }

  /** The empty dictionary `{}`. */
  const EmptyObj: Json := JObj(map[])

  /** The error payload `{"error": msg}` that the agent substitutes for a
      failed tool call. */
  function ErrorObj(msg: string): Json {
    JObj(map["error" := JStr(msg)])
  }

  // ---------------------------------------------------------------------
  // Decimal rendering and parsing of integers
  // ---------------------------------------------------------------------

  predicate IsDigit(c: char) {
    '0' <= c <= '9'
  }

  predicate AllDigits(s: string) {
    forall i :: 0 <= i < |s| ==> IsDigit(s[i])
  }

  function DigitChar(d: nat): (c: char)
    requires d < 10
    ensures IsDigit(c)
  {
    (('0' as int) + d) as char
  }

  function DigitValue(c: char): (d: nat)
    requires IsDigit(c)
    ensures d < 10
  {
    (c as int) - ('0' as int)
  }

  /** Decimal digits of `n`, without leading zeros. */
  function NatToString(n: nat): (s: string)
    ensures |s| > 0
    ensures AllDigits(s)
    ensures n > 0 ==> s[0] != '0'
    decreases n
  {
    if n < 10 then [DigitChar(n)]
    else NatToString(n / 10) + [DigitChar(n % 10)]
  }

  /** Python `str(i)` for an integer. */
  function IntToString(i: int): string {
    if i < 0 then "-" + NatToString(-i) else NatToString(i)
  }

  /** The number a (possibly empty) run of digits denotes. */
  function DigitsValue(s: string): nat
    requires AllDigits(s)
  {
    if |s| == 0 then 0
    else DigitsValue(s[..|s| - 1]) * 10 + DigitValue(s[|s| - 1])
  }

  /** The literal shape `int(s)` accepts: an optional sign followed by at
      least one ASCII digit. */
  predicate IsDecimalLiteral(s: string) {
    if |s| > 0 && (s[0] == '-' || s[0] == '+') then |s| > 1 && AllDigits(s[1..])
    else |s| > 0 && AllDigits(s)
  }

  /** Python `int(s)` on a string. */
  function ParseInt(s: string): (r: Result<int>)
    ensures r.Ok? <==> IsDecimalLiteral(s)
    ensures r.Err? ==> r.error == "invalid literal for int() with base 10: '" + s + "'"
  {
    if |s| > 1 && s[0] == '-' && AllDigits(s[1..]) then Ok(0 - DigitsValue(s[1..]) as int)
    else if |s| > 1 && s[0] == '+' && AllDigits(s[1..]) then Ok(DigitsValue(s[1..]))
    else if |s| > 0 && s[0] != '-' && s[0] != '+' && AllDigits(s) then Ok(DigitsValue(s))
    else Err("invalid literal for int() with base 10: '" + s + "'")
  }

  /** Reading the decimal digits of `n` back gives `n`. */
  lemma {:induction false} NatToStringRoundTrip(n: nat)
    ensures DigitsValue(NatToString(n)) == n
    decreases n
  {
    if n >= 10 {
      var p := NatToString(n / 10);
      var s := p + [DigitChar(n % 10)];
      assert s[..|s| - 1] == p;
      NatToStringRoundTrip(n / 10);
    }
  }

  /** `int(str(i)) == i` for every integer. */
  lemma ParseIntRoundTrip(i: int)
    ensures ParseInt(IntToString(i)) == Ok(i)
  {
    var s := IntToString(i);
    if i < 0 {
      var d := NatToString(-i);
      assert s == "-" + d;
      assert s[1..] == d;
      NatToStringRoundTrip(-i);
      assert ParseInt(s) == Ok(0 - DigitsValue(d) as int);
    } else {
      assert s == NatToString(i);
      assert IsDigit(s[0]);
      NatToStringRoundTrip(i);
      assert ParseInt(s) == Ok(DigitsValue(s) as int);
    }
  }

  /** Python `int(x)` on a decoded JSON value. */
  function PyInt(j: Json): (r: Result<int>)
    ensures j.JInt? ==> r == Ok(j.i)
    ensures j.JStr? ==> r == ParseInt(j.s)
    ensures (j.JNull? || j.JArr? || j.JObj?) ==> r.Err?
  {
    match j
    case JInt(i) => Ok(i)
    case JBool(b) => Ok(if b then 1 else 0)
    case JStr(s) => ParseInt(s)
    case _ => Err("int() argument must be a string, a bytes-like object or a real number, not '"
                  + TypeName(j) + "'")
  }

  /** Python `str(x)`, which is also what an f-string interpolates, on a
      decoded JSON value. Lists and dictionaries are rendered as a fixed
      placeholder. */
  function PyStr(j: Json): string {
    match j
    case JNull => "None"
    case JBool(b) => if b then "True" else "False"
    case JInt(i) => IntToString(i)
    case JStr(s) => s
    case JArr(_) => "[...]"
    case JObj(_) => "{...}"
  }
}

=== FILE: mcp_tools.dfy ===
/**
 * The three tool handlers the agent can call. Two of them read through the
 * shared cache: they derive a key from a fixed prefix and their argument,
 * answer from the cache when it holds a truthy value, and otherwise ask the
 * backend and store the answer with a handler-specific TTL. The metadata
 * search never touches the cache.
 *
 * The backend is a pair of oracle functions (tooling query, REST call) on
 * an abstract handle type `H`; every request a handler makes is appended to
 * `Services.trace`, so "the backend was not called" is "the trace did not
 * grow".
 */
module McpTools {
  import opened Common
  import ToolCache
  import Auth

  /** One request sent to the backend. */
  datatype Request =
    | LoginRequest(strategy: Auth.Strategy)
    | ToolingQuery(soql: string)
    | RestCall(path: string)

  /** The backend the handlers talk to. */
  datatype Backend<!H> = Backend(
    config: Auth.Config,
    login: Auth.Login<H>,
    tooling: (H, string) -> Result<Json>,   // sf.toolingexecute("query", params={"q": soql})
    restful: (H, string) -> Result<Json>)   // sf.restful(path)

  /** The process-wide singletons the handlers use (the result cache and the
      session manager) and the backend requests made so far. */
  datatype Services<H> = Services(cache: ToolCache.Cache<Json>, session: Auth.Session<H>, trace: seq<Request>)

  /** A handler either returns a value or raises. */
  datatype Outcome = Returned(value: Json) | Raised(error: string)

  datatype Handled<H> = Handled(outcome: Outcome, services: Services<H>)

  const ApexClassPrefix: string := "apex_class:"
  const DescribePrefix: string := "describe:"
  const ApexClassTtl: int := 300
  const DescribeTtl: int := 600

  const ApexClassSelect: string := "SELECT Id, Name, Body FROM ApexClass WHERE Name = '"
  const ApexClassLimit: string := "' LIMIT 1"
  const SearchLimit: string := "%' LIMIT 100"

  /** `getattr(type("X", (), args), attr)`: the argument, or AttributeError
      when the model left it out. */
  function Attr(args: map<string, Json>, attr: string): (r: Result<Json>)
    ensures r.Ok? <==> attr in args
    ensures r.Ok? ==> r.value == args[attr]
  {
    if attr in args then Ok(args[attr])
    else Err("type object 'X' has no attribute '" + attr + "'")
  }

  function ApexClassKey(name: Json): string {
    ApexClassPrefix + PyStr(name)
  }

  function DescribeKey(objectName: Json): string {
    DescribePrefix + PyStr(objectName)
  }

  /** The class lookup query: the name is embedded verbatim between single
      quotes, with no escaping, and the query is capped at one row. */
  function ApexClassSoql(name: string): (q: string)
    ensures |q| == |ApexClassSelect| + |name| + |ApexClassLimit|
    ensures q[..|ApexClassSelect|] == ApexClassSelect
    ensures q[|ApexClassSelect|..|ApexClassSelect| + |name|] == name
    ensures q[|ApexClassSelect| + |name|..] == ApexClassLimit
  {
    ApexClassSelect + name + ApexClassLimit
  }

  const ClassSearchSelect: string := "SELECT Id, Name FROM ApexClass WHERE Name LIKE '%"
  const TriggerSearchSelect: string := "SELECT Id, Name, TableEnumOrId FROM ApexTrigger WHERE Name LIKE '%"

  /** The two search queries: the terms are embedded verbatim inside a LIKE
      pattern and each query is capped at 100 rows. */
  function ClassSearchSoql(terms: string): (q: string)
    ensures |q| == |ClassSearchSelect| + |terms| + |SearchLimit|
    ensures q[..|ClassSearchSelect|] == ClassSearchSelect
    ensures q[|ClassSearchSelect|..|ClassSearchSelect| + |terms|] == terms
    ensures q[|ClassSearchSelect| + |terms|..] == SearchLimit
  {
    ClassSearchSelect + terms + SearchLimit
  }

  function TriggerSearchSoql(terms: string): (q: string)
    ensures |q| == |TriggerSearchSelect| + |terms| + |SearchLimit|
    ensures q[..|TriggerSearchSelect|] == TriggerSearchSelect
    ensures q[|TriggerSearchSelect|..|TriggerSearchSelect| + |terms|] == terms
    ensures q[|TriggerSearchSelect| + |terms|..] == SearchLimit
  {
    TriggerSearchSelect + terms + SearchLimit
  }

  function DescribePath(objectName: string): string {
    "sobjects/" + objectName + "/describe"
  }

  /** `res.get("records", [])`. */
  function Records(res: Json): (r: Result<Json>)
    ensures res.JObj? ==> r.Ok?
    ensures res.JObj? && "records" in res.fields ==> r == Ok(res.fields["records"])
    ensures res.JObj? && "records" !in res.fields ==> r == Ok(JArr([]))
    ensures !res.JObj? ==> r.Err?
  {
    match res
    case JObj(m) => Ok(if "records" in m then m["records"] else JArr([]))
    case _ => Err("'" + TypeName(res) + "' object has no attribute 'get'")
  }

  /** `records[0] if records else {}`. */
  function FirstOrEmpty(records: Json): (r: Result<Json>)
    ensures !Truthy(records) ==> r == Ok(EmptyObj)
    ensures records.JArr? && |records.items| > 0 ==> r == Ok(records.items[0])
  {
    if !Truthy(records) then Ok(EmptyObj)
    else match records
      case JArr(xs) => Ok(xs[0])
      case JStr(s) => Ok(JStr(s[..1]))
      case JObj(_) => Err("0")
      case _ => Err("'" + TypeName(records) + "' object is not subscriptable")
  }

  /** The cache answers `key` at `now`: a live entry whose value is truthy. */
  predicate Hit(c: ToolCache.Cache<Json>, key: string, now: int) {
    var live := ToolCache.Live(c, now);
    key in live && Truthy(live[key])
  }

  datatype Connected<H> = Connected(client: Result<H>, services: Services<H>)

  /** `sf_manager.client()` from inside a handler; a login, when one runs,
      is recorded as a backend request. */
  function Connect<H>(b: Backend<H>, now: int, sv: Services<H>): (r: Connected<H>)
    ensures r.services.cache == sv.cache
    ensures r.client == Auth.Client(sv.session, b.config, now, b.login).result
    ensures r.services.session == Auth.Client(sv.session, b.config, now, b.login).session
    ensures Auth.Reusable(sv.session, now) ==>
              r == Connected(Ok(sv.session.handle.value), sv)
    ensures !Auth.Reusable(sv.session, now) ==>
              r.services.trace == sv.trace + [LoginRequest(Auth.ChooseStrategy(b.config))]
  {
    var a := Auth.Client(sv.session, b.config, now, b.login);
    var logged := if a.attempt.Some? then [LoginRequest(a.attempt.value)] else [];
    Connected(a.result, sv.(session := a.session, trace := sv.trace + logged))
  }

  /** The class query `soql`, sent with `handle`, was answered, and `out`
      is the first of its records (or `{}`). */
  predicate FetchedFirst<H>(b: Backend<H>, handle: H, soql: string, out: Json) {
    && b.tooling(handle, soql).Ok?
    && Records(b.tooling(handle, soql).value).Ok?
    && FirstOrEmpty(Records(b.tooling(handle, soql).value).value) == Ok(out)
  }

  /** `get_apex_class(inp)` at time `now`. */
  function GetApexClass<H>(b: Backend<H>, now: int, args: map<string, Json>, sv: Services<H>): (r: Handled<H>)
    ensures "name" !in args ==> r.outcome.Raised? && r.services == sv
    ensures "name" in args && Hit(sv.cache, ApexClassKey(args["name"]), now) ==>
              r == Handled(Returned(ToolCache.Live(sv.cache, now)[ApexClassKey(args["name"])]), sv)
    ensures "name" in args && !Hit(sv.cache, ApexClassKey(args["name"]), now) ==>
              && |r.services.trace| > |sv.trace|
              && r.services.session == Connect(b, now, sv).services.session
    ensures "name" in args && !Hit(sv.cache, ApexClassKey(args["name"]), now) && r.outcome.Returned? ==>
              && Last(r.services.trace) == ToolingQuery(ApexClassSoql(PyStr(args["name"])))
              && ApexClassKey(args["name"]) in r.services.cache.store
              && r.services.cache.store[ApexClassKey(args["name"])]
                 == ToolCache.Entry(r.outcome.value, now + ApexClassTtl)
              && Connect(b, now, sv).client.Ok?
              && FetchedFirst(b, Connect(b, now, sv).client.value, ApexClassSoql(PyStr(args["name"])), r.outcome.value)
    ensures sv.trace <= r.services.trace
    ensures "name" in args ==>
              forall k :: k != ApexClassKey(args["name"]) ==> ToolCache.SameEntry(r.services.cache, sv.cache, k)
    ensures r.services.cache.defaultTtl == sv.cache.defaultTtl
  {
    match Attr(args, "name")
    case Err(e) => Handled(Raised(e), sv)
    case Ok(name) =>
      var key := ApexClassKey(name);
      var lookup := ToolCache.Get(sv.cache, key, now);
      var sv1 := sv.(cache := lookup.cache);
      if lookup.value.Some? && Truthy(lookup.value.value) then
        Handled(Returned(lookup.value.value), sv1)
      else
        var conn := Connect(b, now, sv1);
        if conn.client.Err? then Handled(Raised(conn.client.error), conn.services)
        else
          var soql := ApexClassSoql(PyStr(name));
          var sv2 := conn.services.(trace := conn.services.trace + [ToolingQuery(soql)]);
          match b.tooling(conn.client.value, soql)
          case Err(e) => Handled(Raised(e), sv2)
          case Ok(res) =>
            match Records(res)
            case Err(e) => Handled(Raised(e), sv2)
            case Ok(records) =>
              match FirstOrEmpty(records)
              case Err(e) => Handled(Raised(e), sv2)
              case Ok(out) =>
                Handled(Returned(out), sv2.(cache := ToolCache.Set(sv2.cache, key, out, Some(ApexClassTtl), now)))
  }

  function Last<T>(s: seq<T>): T
    requires |s| > 0
  {
    s[|s| - 1]
  }

  /** `inp.q or ""`. */
  function SearchTerms(q: Json): (terms: string)
    ensures !Truthy(q) ==> terms == ""
    ensures q.JStr? ==> terms == q.s
  {
    if Truthy(q) then PyStr(q) else ""
  }

  /** The tooling query `soql`, sent with `handle`, answered with a reply
      whose `records` are `records`. */
  predicate Replied<H>(b: Backend<H>, handle: H, soql: string, records: Json) {
    b.tooling(handle, soql).Ok? && Records(b.tooling(handle, soql).value) == Ok(records)
  }

  /** `search_metadata(inp)` at time `now`: logs in first, then reads `q`,
      then runs the class search and the trigger search, in that order. */
  function SearchMetadata<H>(b: Backend<H>, now: int, args: map<string, Json>, sv: Services<H>): (r: Handled<H>)
    ensures r.services.cache == sv.cache
    ensures r.services.session == Connect(b, now, sv).services.session
    ensures sv.trace <= r.services.trace
    ensures r.outcome.Returned? ==>
              && "q" in args
              && r.outcome.value.JObj?
              && r.outcome.value.fields.Keys == {"ApexClass", "ApexTrigger"}
              && |r.services.trace| >= |sv.trace| + 2
              && r.services.trace[|r.services.trace| - 2..] ==
                 [ToolingQuery(ClassSearchSoql(SearchTerms(args["q"]))),
                  ToolingQuery(TriggerSearchSoql(SearchTerms(args["q"])))]
              && Connect(b, now, sv).client.Ok?
              && Replied(b, Connect(b, now, sv).client.value, ClassSearchSoql(SearchTerms(args["q"])),
                         r.outcome.value.fields["ApexClass"])
              && Replied(b, Connect(b, now, sv).client.value, TriggerSearchSoql(SearchTerms(args["q"])),
                         r.outcome.value.fields["ApexTrigger"])
  {
    var conn := Connect(b, now, sv);
    if conn.client.Err? then Handled(Raised(conn.client.error), conn.services)
    else
      match Attr(args, "q")
      case Err(e) => Handled(Raised(e), conn.services)
      case Ok(q) =>
        var terms := SearchTerms(q);
        var h := conn.client.value;
        var classQuery := ClassSearchSoql(terms);
        var triggerQuery := TriggerSearchSoql(terms);
        var sv1 := conn.services.(trace := conn.services.trace + [ToolingQuery(classQuery)]);
        match b.tooling(h, classQuery)
        case Err(e) => Handled(Raised(e), sv1)
        case Ok(res1) =>
          match Records(res1)
          case Err(e) => Handled(Raised(e), sv1)
          case Ok(classes) =>
            var sv2 := sv1.(trace := sv1.trace + [ToolingQuery(triggerQuery)]);
            match b.tooling(h, triggerQuery)
            case Err(e) => Handled(Raised(e), sv2)
            case Ok(res2) =>
              match Records(res2)
              case Err(e) => Handled(Raised(e), sv2)
              case Ok(triggers) =>
                Handled(Returned(JObj(map["ApexClass" := classes, "ApexTrigger" := triggers])), sv2)
  }

  /** `get_object_schema(inp)` at time `now`. */
  function GetObjectSchema<H>(b: Backend<H>, now: int, args: map<string, Json>, sv: Services<H>): (r: Handled<H>)
    ensures "object_api_name" !in args ==> r.outcome.Raised? && r.services == sv
    ensures "object_api_name" in args && Hit(sv.cache, DescribeKey(args["object_api_name"]), now) ==>
              r == Handled(Returned(ToolCache.Live(sv.cache, now)[DescribeKey(args["object_api_name"])]), sv)
    ensures "object_api_name" in args && !Hit(sv.cache, DescribeKey(args["object_api_name"]), now) ==>
              && |r.services.trace| > |sv.trace|
              && r.services.session == Connect(b, now, sv).services.session
    ensures "object_api_name" in args && !Hit(sv.cache, DescribeKey(args["object_api_name"]), now)
            && r.outcome.Returned? ==>
              && Last(r.services.trace) == RestCall(DescribePath(PyStr(args["object_api_name"])))
              && DescribeKey(args["object_api_name"]) in r.services.cache.store
              && r.services.cache.store[DescribeKey(args["object_api_name"])]
                 == ToolCache.Entry(r.outcome.value, now + DescribeTtl)
              && Connect(b, now, sv).client.Ok?
              && b.restful(Connect(b, now, sv).client.value, DescribePath(PyStr(args["object_api_name"])))
                 == Ok(r.outcome.value)
    ensures sv.trace <= r.services.trace
    ensures "object_api_name" in args ==>
              forall k :: k != DescribeKey(args["object_api_name"]) ==> ToolCache.SameEntry(r.services.cache, sv.cache, k)
    ensures r.services.cache.defaultTtl == sv.cache.defaultTtl
  {
    match Attr(args, "object_api_name")
    case Err(e) => Handled(Raised(e), sv)
    case Ok(objectName) =>
      var key := DescribeKey(objectName);
      var lookup := ToolCache.Get(sv.cache, key, now);
      var sv1 := sv.(cache := lookup.cache);
      if lookup.value.Some? && Truthy(lookup.value.value) then
        Handled(Returned(lookup.value.value), sv1)
      else
        var conn := Connect(b, now, sv1);
        if conn.client.Err? then Handled(Raised(conn.client.error), conn.services)
        else
          var path := DescribePath(PyStr(objectName));
          var sv2 := conn.services.(trace := conn.services.trace + [RestCall(path)]);
          match b.restful(conn.client.value, path)
          case Err(e) => Handled(Raised(e), sv2)
          case Ok(res) =>
            Handled(Returned(res), sv2.(cache := ToolCache.Set(sv2.cache, key, res, Some(DescribeTtl), now)))
  }

  // ---------------------------------------------------------------------
  // Properties of the handlers
  // ---------------------------------------------------------------------

  /** The class lookup and the describe never share a cache entry, whatever
      their arguments. */
  lemma KeysNeverCollide(name: Json, objectName: Json)
    ensures ApexClassKey(name) != DescribeKey(objectName)
  {
    assert ApexClassKey(name)[0] == 'a';
    assert DescribeKey(objectName)[0] == 'd';
  }

  /** Distinct class names give distinct queries: the name can be read back
      from the query. */
  lemma ApexClassSoqlInjective(a: string, b: string)
    requires ApexClassSoql(a) == ApexClassSoql(b)
    ensures a == b
  {
    var q := ApexClassSoql(a);
    assert |a| == |b|;
    assert a == q[|ApexClassSelect|..|ApexClassSelect| + |a|];
  }

  /** A class lookup that misses, once `client()` hands out a handle whose
      class query is answered with a `records` list, makes that one query
      after whatever login ran, returns the first record (or `{}` when there
      is none) and caches it for 300 seconds. */
  lemma ApexClassMiss<H>(b: Backend<H>, now: int, args: map<string, Json>, sv: Services<H>, records: seq<Json>)
    requires "name" in args
    requires !Hit(sv.cache, ApexClassKey(args["name"]), now)
    requires Connect(b, now, sv).client.Ok?
    requires Replied(b, Connect(b, now, sv).client.value, ApexClassSoql(PyStr(args["name"])), JArr(records))
    ensures var r := GetApexClass(b, now, args, sv);
            var out := if |records| > 0 then records[0] else EmptyObj;
            var conn := Connect(b, now, sv);
            && r.outcome == Returned(out)
            && r.services.trace == conn.services.trace + [ToolingQuery(ApexClassSoql(PyStr(args["name"])))]
            && r.services.session == conn.services.session
            && r.services.cache.store[ApexClassKey(args["name"])] == ToolCache.Entry(out, now + ApexClassTtl)
  {
    var key := ApexClassKey(args["name"]);
    var lookup := ToolCache.Get(sv.cache, key, now);
    assert !(lookup.value.Some? && Truthy(lookup.value.value));
    var conn := Connect(b, now, sv.(cache := lookup.cache));
    assert conn.client == Connect(b, now, sv).client;
  }

  /** Once a truthy class record is cached, every lookup of the same name
      up to 300 seconds later is answered from the cache: same value, no
      backend request, nothing changed, whatever the backend would say. */
  lemma ApexClassServedFromCache<H>(b: Backend<H>, now: int, args: map<string, Json>, sv: Services<H>,
                                     later: Backend<H>, t: int)
    requires "name" in args
    requires !Hit(sv.cache, ApexClassKey(args["name"]), now)
    requires GetApexClass(b, now, args, sv).outcome.Returned?
    requires Truthy(GetApexClass(b, now, args, sv).outcome.value)
    requires now <= t <= now + ApexClassTtl
    ensures var r := GetApexClass(b, now, args, sv);
            GetApexClass(later, t, args, r.services) == Handled(r.outcome, r.services)
  {
    var r := GetApexClass(b, now, args, sv);
    var key := ApexClassKey(args["name"]);
    assert key in ToolCache.Live(r.services.cache, t);
    assert Hit(r.services.cache, key, t);
  }

  /** An empty lookup result `{}` is cached but falsy, so the next lookup
      of the same name, at any time, goes to the backend again. */
  lemma EmptyApexClassIsRequeried<H>(b: Backend<H>, now: int, args: map<string, Json>, sv: Services<H>,
                                      later: Backend<H>, t: int)
    requires "name" in args
    requires !Hit(sv.cache, ApexClassKey(args["name"]), now)
    requires GetApexClass(b, now, args, sv).outcome == Returned(EmptyObj)
    ensures var r := GetApexClass(b, now, args, sv);
            |GetApexClass(later, t, args, r.services).services.trace| > |r.services.trace|
  {
    var r := GetApexClass(b, now, args, sv);
    var key := ApexClassKey(args["name"]);
    assert !Truthy(EmptyObj);
    assert !Hit(r.services.cache, key, t);
  }

  /** After its 300 seconds are up, a cached class record no longer answers
      the lookup, which goes to the backend again. */
  lemma ExpiredApexClassIsRequeried<H>(b: Backend<H>, now: int, args: map<string, Json>, sv: Services<H>,
                                        later: Backend<H>, t: int)
    requires "name" in args
    requires !Hit(sv.cache, ApexClassKey(args["name"]), now)
    requires GetApexClass(b, now, args, sv).outcome.Returned?
    requires t > now + ApexClassTtl
    ensures var r := GetApexClass(b, now, args, sv);
            var r2 := GetApexClass(later, t, args, r.services);
            |r2.services.trace| > |r.services.trace|
  {
    var r := GetApexClass(b, now, args, sv);
    var key := ApexClassKey(args["name"]);
    assert key !in ToolCache.Live(r.services.cache, t);
  }

  /** A describe that misses, once `client()` hands out a handle whose REST
      call is answered, makes that one call after whatever login ran,
      returns its answer unchanged and caches it for 600 seconds, even when
      the answer is falsy. */
  lemma ObjectSchemaMiss<H>(b: Backend<H>, now: int, args: map<string, Json>, sv: Services<H>, res: Json)
    requires "object_api_name" in args
    requires !Hit(sv.cache, DescribeKey(args["object_api_name"]), now)
    requires Connect(b, now, sv).client.Ok?
    requires b.restful(Connect(b, now, sv).client.value, DescribePath(PyStr(args["object_api_name"]))) == Ok(res)
    ensures var r := GetObjectSchema(b, now, args, sv);
            var conn := Connect(b, now, sv);
            && r.outcome == Returned(res)
            && r.services.trace == conn.services.trace + [RestCall(DescribePath(PyStr(args["object_api_name"])))]
            && r.services.session == conn.services.session
            && r.services.cache.store[DescribeKey(args["object_api_name"])] == ToolCache.Entry(res, now + DescribeTtl)
  {
    var key := DescribeKey(args["object_api_name"]);
    var lookup := ToolCache.Get(sv.cache, key, now);
    assert !(lookup.value.Some? && Truthy(lookup.value.value));
    var conn := Connect(b, now, sv.(cache := lookup.cache));
    assert conn.client == Connect(b, now, sv).client;
  }

  /** A search, once `client()` hands out a handle (after whatever login
      ran) whose two queries are answered with `records`, makes exactly the
      class query and then the trigger query for its terms, and returns the
      records of each under its type name; the cache is left alone and the
      session is the one `client()` left. */
  lemma SearchMetadataAnswered<H>(b: Backend<H>, now: int, args: map<string, Json>, sv: Services<H>,
                                  classes: Json, triggers: Json)
    requires "q" in args
    requires Connect(b, now, sv).client.Ok?
    requires Replied(b, Connect(b, now, sv).client.value, ClassSearchSoql(SearchTerms(args["q"])), classes)
    requires Replied(b, Connect(b, now, sv).client.value, TriggerSearchSoql(SearchTerms(args["q"])), triggers)
    ensures var terms := SearchTerms(args["q"]);
            var r := SearchMetadata(b, now, args, sv);
            var conn := Connect(b, now, sv);
            && r.outcome == Returned(JObj(map["ApexClass" := classes, "ApexTrigger" := triggers]))
            && r.services == conn.services.(trace := conn.services.trace + [ToolingQuery(ClassSearchSoql(terms)),
                                                                            ToolingQuery(TriggerSearchSoql(terms))])
  {
  }

  /** A search with `q` set to `null` (or any falsy value) searches for the
      empty string, with a live session makes exactly the two tooling
      queries, and returns both record lists under their type names. */
  lemma SearchWithoutTerms<H>(b: Backend<H>, now: int, args: map<string, Json>, sv: Services<H>,
                              classes: Json, triggers: Json)
    requires "q" in args && !Truthy(args["q"])
    requires Auth.Reusable(sv.session, now)
    requires Replied(b, sv.session.handle.value, ClassSearchSoql(""), classes)
    requires Replied(b, sv.session.handle.value, TriggerSearchSoql(""), triggers)
    ensures var r := SearchMetadata(b, now, args, sv);
            && r.outcome == Returned(JObj(map["ApexClass" := classes, "ApexTrigger" := triggers]))
            && r.services == sv.(trace := sv.trace + [ToolingQuery(ClassSearchSoql("")),
                                                      ToolingQuery(TriggerSearchSoql(""))])
  {
    assert SearchTerms(args["q"]) == "";
    assert Connect(b, now, sv) == Connected(Ok(sv.session.handle.value), sv);
    SearchMetadataAnswered(b, now, args, sv, classes, triggers);
  }

  // ---------------------------------------------------------------------
  // Which values the handlers return
  // ---------------------------------------------------------------------

  /** Every value in the cache is a dictionary, a list or a string. */
  predicate CacheHoldsContainers(c: ToolCache.Cache<Json>) {
    forall k :: k in c.store ==> IsContainer(c.store[k].value)
  }

  /** A tooling reply whose `records` list holds only containers (as
      Salesforce's records, which are dictionaries, do). */
  predicate RecordsAreContainers(res: Json) {
    res.JObj? && "records" in res.fields && res.fields["records"].JArr? ==>
      forall i :: 0 <= i < |res.fields["records"].items| ==> IsContainer(res.fields["records"].items[i])
  }

  /** A value a handler returns is a container; raising is allowed. */
  predicate ReturnsContainer(o: Outcome) {
    o.Returned? ==> IsContainer(o.value)
  }

  /** A class lookup over a cache of containers, against a backend whose
      records are containers, returns a container and caches only
      containers. */
  lemma GetApexClassKeepsContainers<H>(b: Backend<H>, now: int, args: map<string, Json>, sv: Services<H>)
    requires forall h: H, q: string :: b.tooling(h, q).Ok? ==> RecordsAreContainers(b.tooling(h, q).value)
    requires CacheHoldsContainers(sv.cache)
    ensures var r := GetApexClass(b, now, args, sv);
            CacheHoldsContainers(r.services.cache) && ReturnsContainer(r.outcome)
  {
    var r := GetApexClass(b, now, args, sv);
    if "name" in args {
      var key := ApexClassKey(args["name"]);
      var lookup := ToolCache.Get(sv.cache, key, now);
      assert CacheHoldsContainers(lookup.cache) by {
        forall k | k in lookup.cache.store ensures IsContainer(lookup.cache.store[k].value) {
          assert k != key ==> ToolCache.SameEntry(lookup.cache, sv.cache, k);
        }
      }
      if !(lookup.value.Some? && Truthy(lookup.value.value)) {
        var conn := Connect(b, now, sv.(cache := lookup.cache));
        if conn.client.Ok? {
          var soql := ApexClassSoql(PyStr(args["name"]));
          var reply := b.tooling(conn.client.value, soql);
          if reply.Ok? && Records(reply.value).Ok? && FirstOrEmpty(Records(reply.value).value).Ok? {
            assert RecordsAreContainers(reply.value);
            var out := FirstOrEmpty(Records(reply.value).value).value;
            assert IsContainer(out);
            assert r.services.cache == ToolCache.Set(lookup.cache, key, out, Some(ApexClassTtl), now);
          }
        }
      }
    }
  }

  /** A describe over a cache of containers, against a REST API that answers
      with containers, returns a container and caches only containers. */
  lemma GetObjectSchemaKeepsContainers<H>(b: Backend<H>, now: int, args: map<string, Json>, sv: Services<H>)
    requires forall h: H, p: string :: b.restful(h, p).Ok? ==> IsContainer(b.restful(h, p).value)
    requires CacheHoldsContainers(sv.cache)
    ensures var r := GetObjectSchema(b, now, args, sv);
            CacheHoldsContainers(r.services.cache) && ReturnsContainer(r.outcome)
  {
    var r := GetObjectSchema(b, now, args, sv);
    if "object_api_name" in args {
      var key := DescribeKey(args["object_api_name"]);
      var lookup := ToolCache.Get(sv.cache, key, now);
      assert CacheHoldsContainers(lookup.cache) by {
        forall k | k in lookup.cache.store ensures IsContainer(lookup.cache.store[k].value) {
          assert k != key ==> ToolCache.SameEntry(lookup.cache, sv.cache, k);
        }
      }
      if !(lookup.value.Some? && Truthy(lookup.value.value)) {
        var conn := Connect(b, now, sv.(cache := lookup.cache));
        if conn.client.Ok? {
          var reply := b.restful(conn.client.value, DescribePath(PyStr(args["object_api_name"])));
          if reply.Ok? {
            assert r.services.cache == ToolCache.Set(lookup.cache, key, reply.value, Some(DescribeTtl), now);
          }
        }
      }
    }
  }
}

=== FILE: query_llm.dfy ===
/**
 * The agent loop. A run starts the conversation with the system prompt and
 * the question, then asks the model up to `maxIterations` times. A reply
 * without tool calls ends the run with its content as the answer; a reply
 * with tool calls has every call dispatched in order, each producing one
 * tool message and one log entry, and the loop continues. When the budget
 * runs out the run ends with a fixed sentinel answer.
 *
 * The model is a sequence of responses (the i-th call returns the i-th
 * response; a call past the end of the sequence fails). The tool layer is
 * a function `invoke` over a state `S` that may raise; `ToolFuncs` is the
 * concrete instance built from the three handlers.
 */
module Agent {
  import opened Common
  import McpTools
  import Auth

  // ---------------------------------------------------------------------
  // The tool table
  // ---------------------------------------------------------------------

  datatype Tool = GetApexClassTool | SearchMetadataTool | GetObjectSchemaTool

  function ToolName(t: Tool): string {
    match t
    case GetApexClassTool => "get_apex_class"
    case SearchMetadataTool => "search_metadata"
    case GetObjectSchemaTool => "get_object_schema"
  }

  /** `TOOL_FUNCS.get(name)`: exactly the three advertised names resolve,
      each to the tool of that name. */
  function LookupTool(name: string): (r: Option<Tool>)
    ensures r.Some? <==> name in {"get_apex_class", "search_metadata", "get_object_schema"}
    ensures r.Some? ==> ToolName(r.value) == name
  {
    if name == "get_apex_class" then Some(GetApexClassTool)
    else if name == "search_metadata" then Some(SearchMetadataTool)
    else if name == "get_object_schema" then Some(GetObjectSchemaTool)
    else None
  }

  /** Every tool is found under its own name. */
  lemma LookupToolName(t: Tool)
    ensures LookupTool(ToolName(t)) == Some(t)
  {
  }

  // ---------------------------------------------------------------------
  // Messages and model responses
  // ---------------------------------------------------------------------

  /** A tool call the model proposed: its correlation id, the tool name and
      the arguments as decoded by `json.loads` (an `Err` when they are not
      valid JSON). */
  datatype ToolCall = ToolCall(id: string, name: string, arguments: Result<Json>)

  /** One model response: its text, its tool calls (empty when it answers
      directly) and its token usage. */
  datatype Response = Response(content: Option<string>, toolCalls: seq<ToolCall>, totalTokens: Option<int>)

  datatype Message =
    | SystemMessage(text: string)
    | UserMessage(text: string)
    | AssistantMessage(text: string, calls: seq<ToolCall>)
    | ToolMessage(toolCallId: string, name: string, result: Json)

  /** One entry of the returned `tool_calls` log. */
  datatype LogEntry = LogEntry(name: string, args: Json, ok: bool)

  const SystemPrompt: string :=
    "You are a Salesforce engineering agent that answers questions using tools only when needed. "
    + "Prefer the smallest set of tool calls to answer accurately. "
    + "If code or schema is requested, call the appropriate tool by exact name."

  const StoppedAnswer: string := "Stopped after max tool iterations."

  /** `content or ""`. */
  function ContentOrEmpty(c: Option<string>): string {
    if c.Some? then c.value else ""
  }

  // ---------------------------------------------------------------------
  // Executing one turn's tool calls
  // ---------------------------------------------------------------------

  /** What a handler did, and the tool layer's state afterwards. */
  datatype Invoked<S> = Invoked(outcome: McpTools.Outcome, state: S)

  /** Python's `needle in hay` on strings. */
  predicate ContainsSubstring(needle: string, hay: string)
    decreases |hay|
  {
    if |hay| < |needle| then false
    else needle <= hay || (|hay| > 0 && ContainsSubstring(needle, hay[1..]))
  }

  /** `"error" not in result`; Python raises TypeError when the result is
      not a container. */
  function NoErrorKey(result: Json): (r: Result<bool>)
    ensures result.JObj? ==> r == Ok("error" !in result.fields)
    ensures r.Ok? <==> IsContainer(result)
  {
    match result
    case JObj(m) => Ok("error" !in m)
    case JArr(xs) => Ok(JStr("error") !in xs)
    case JStr(s) => Ok(!ContainsSubstring("error", s))
    case _ => Err("argument of type '" + TypeName(result) + "' is not iterable")
  }

  datatype Step<S> =
    | Answered(message: Message, entry: LogEntry, state: S)
    | StepRaised(error: string, state: S)

  /** The `result` a handler call stands for: what it returned, or
      `{"error": str(e)}` when it raised. */
  function ResultOf(o: McpTools.Outcome): Json {
    if o.Returned? then o.value else ErrorObj(o.error)
  }

  /** One iteration of the loop in `_execute_tool_calls`. */
  function ExecuteOne<S>(call: ToolCall, invoke: (Tool, Json, S) -> Invoked<S>, s: S): (r: Step<S>)
    ensures call.arguments.Err? ==> r == StepRaised(call.arguments.error, s)
    ensures LookupTool(call.name).None? && call.arguments.Ok? ==>
              r == Answered(ToolMessage(call.id, call.name, ErrorObj("Unknown tool " + call.name)),
                            LogEntry(call.name, call.arguments.value, false), s)
    ensures LookupTool(call.name).Some? && call.arguments.Ok? ==>
              var invoked := invoke(LookupTool(call.name).value, call.arguments.value, s);
              && r.state == invoked.state
              && (r.Answered? <==> IsContainer(ResultOf(invoked.outcome)))
              && (r.Answered? ==> r.message == ToolMessage(call.id, call.name, ResultOf(invoked.outcome)))
    ensures r.Answered? ==> CallAnswered(call, r.message, r.entry)
  {
    match call.arguments
    case Err(e) => StepRaised(e, s)
    case Ok(args) =>
      var tool := LookupTool(call.name);
      var invoked :=
        if tool.None? then Invoked(McpTools.Returned(ErrorObj("Unknown tool " + call.name)), s)
        else invoke(tool.value, args, s);
      var result := ResultOf(invoked.outcome);
      match NoErrorKey(result)
      case Err(e) => StepRaised(e, invoked.state)
      case Ok(ok) => Answered(ToolMessage(call.id, call.name, result), LogEntry(call.name, args, ok), invoked.state)
  }

  /** The tool message and the log entry answer `call`: same correlation id
      and name, the decoded arguments logged, `ok` exactly when the result
      has no "error" key, and an unknown tool reported as such. */
  predicate CallAnswered(call: ToolCall, m: Message, entry: LogEntry) {
    && call.arguments.Ok?
    && m.ToolMessage?
    && m.toolCallId == call.id
    && m.name == call.name
    && entry.name == call.name
    && entry.args == call.arguments.value
    && (entry.ok <==> NoErrorKey(m.result) == Ok(true))
    && (LookupTool(call.name).None? ==> m.result == ErrorObj("Unknown tool " + call.name))
  }

  /** A handler exception is caught and turned into the result
      `{"error": str(e)}`, logged as failed. */
  lemma HandlerErrorBecomesResult<S>(call: ToolCall, invoke: (Tool, Json, S) -> Invoked<S>, s: S, e: string)
    requires call.arguments.Ok? && LookupTool(call.name).Some?
    requires invoke(LookupTool(call.name).value, call.arguments.value, s).outcome == McpTools.Raised(e)
    ensures ExecuteOne(call, invoke, s)
            == Answered(ToolMessage(call.id, call.name, ErrorObj(e)),
                        LogEntry(call.name, call.arguments.value, false),
                        invoke(LookupTool(call.name).value, call.arguments.value, s).state)
  {
    assert "error" in ErrorObj(e).fields;
  }

  datatype Executed<S> =
    | Executed(messages: seq<Message>, logs: seq<LogEntry>, state: S)
    | ExecutionRaised(error: string, state: S)

  /** `_execute_tool_calls(message)`: every proposed call, in order, answered
      by one tool message and one log entry. */
  function ExecuteToolCalls<S>(calls: seq<ToolCall>, invoke: (Tool, Json, S) -> Invoked<S>, s: S): (r: Executed<S>)
    ensures r.Executed? ==> |r.messages| == |calls| && |r.logs| == |calls|
    ensures r.Executed? ==>
              forall i :: 0 <= i < |calls| ==> CallAnswered(calls[i], r.messages[i], r.logs[i])
    ensures (exists i :: 0 <= i < |calls| && calls[i].arguments.Err?) ==> r.ExecutionRaised?
    decreases |calls|
  {
    if |calls| == 0 then Executed([], [], s)
    else
      match ExecuteOne(calls[0], invoke, s)
      case StepRaised(e, s1) => ExecutionRaised(e, s1)
      case Answered(m, entry, s1) =>
        match ExecuteToolCalls(calls[1..], invoke, s1)
        case ExecutionRaised(e, s2) => ExecutionRaised(e, s2)
        case Executed(ms, ls, s2) => Executed([m] + ms, [entry] + ls, s2)
  }

  /** The tool state before each of `calls` and after the last, when each
      call is answered in the state the previous one left. */
  function StatesAlong<S>(calls: seq<ToolCall>, invoke: (Tool, Json, S) -> Invoked<S>, s: S): (st: seq<S>)
    ensures |st| == |calls| + 1 && st[0] == s
    decreases |calls|
  {
    if |calls| == 0 then [s]
    else [s] + StatesAlong(calls[1..], invoke, ExecuteOne(calls[0], invoke, s).state)
  }

  /** A completed turn dispatches every call, in order, each in the state
      the previous call left: the i-th tool message and log entry are
      exactly what answering the i-th call produces, and the turn ends in
      the state the last call left. */
  lemma {:induction false} ExecuteToolCallsDispatches<S>(calls: seq<ToolCall>, invoke: (Tool, Json, S) -> Invoked<S>, s: S)
    requires ExecuteToolCalls(calls, invoke, s).Executed?
    ensures var r := ExecuteToolCalls(calls, invoke, s);
            var st := StatesAlong(calls, invoke, s);
            && st[|calls|] == r.state
            && forall i :: 0 <= i < |calls| ==>
                 ExecuteOne(calls[i], invoke, st[i]) == Answered(r.messages[i], r.logs[i], st[i + 1])
    decreases |calls|
  {
    if |calls| > 0 {
      var r := ExecuteToolCalls(calls, invoke, s);
      var step := ExecuteOne(calls[0], invoke, s);
      var rest := ExecuteToolCalls(calls[1..], invoke, step.state);
      ExecuteToolCallsDispatches(calls[1..], invoke, step.state);
      var st := StatesAlong(calls, invoke, s);
      var st' := StatesAlong(calls[1..], invoke, step.state);
      assert st == [s] + st';
      forall i | 0 <= i < |calls|
        ensures ExecuteOne(calls[i], invoke, st[i]) == Answered(r.messages[i], r.logs[i], st[i + 1])
      {
        if i > 0 {
          assert calls[1..][i - 1] == calls[i];
          assert r.messages[i] == rest.messages[i - 1] && r.logs[i] == rest.logs[i - 1];
        }
      }
    }
  }

  predicate ArgumentsDecoded(calls: seq<ToolCall>) {
    forall i :: 0 <= i < |calls| ==> calls[i].arguments.Ok?
  }

  /** With decodable arguments, and a tool layer that keeps the invariant
      `inv` and, while it holds, returns containers, a turn always
      completes: handler exceptions and unknown tools become error results
      and never stop the remaining calls. */
  lemma {:induction false} ExecuteToolCallsCompletes<S>(calls: seq<ToolCall>, invoke: (Tool, Json, S) -> Invoked<S>,
                                                        inv: S -> bool, s: S)
    requires ArgumentsDecoded(calls)
    requires forall t: Tool, args: Json, s': S :: inv(s') ==>
               inv(invoke(t, args, s').state) && McpTools.ReturnsContainer(invoke(t, args, s').outcome)
    requires inv(s)
    ensures ExecuteToolCalls(calls, invoke, s).Executed?
    ensures inv(ExecuteToolCalls(calls, invoke, s).state)
    decreases |calls|
  {
    if |calls| > 0 {
      var step := ExecuteOne(calls[0], invoke, s);
      assert calls[0].arguments.Ok?;
      var tool := LookupTool(calls[0].name);
      if tool.Some? {
        var invoked := invoke(tool.value, calls[0].arguments.value, s);
        assert inv(invoked.state) && McpTools.ReturnsContainer(invoked.outcome);
      }
      assert step.Answered? && inv(step.state);
      assert ArgumentsDecoded(calls[1..]) by {
        forall i | 0 <= i < |calls[1..]| ensures calls[1..][i].arguments.Ok? {
          assert calls[1..][i] == calls[i + 1];
        }
      }
      ExecuteToolCallsCompletes(calls[1..], invoke, inv, step.state);
    }
  }

  // ---------------------------------------------------------------------
  // The run
  // ---------------------------------------------------------------------

  /** What `run_agent` returns (`duration_ms` is always `None` and omitted). */
  datatype Reply = Reply(answer: string, toolCalls: seq<LogEntry>, totalTokens: Option<int>)

  /** A finished run: the reply, together with the final conversation, the
      number of model calls and of tool rounds, and the tool layer's state;
      or the exception that escaped the run. */
  datatype Run<S> =
    | Replied(reply: Reply, conversation: seq<Message>, modelCalls: nat, toolRounds: nat, state: S)
    | RunRaised(error: string, modelCalls: nat, state: S)

  /** The conversation a run starts with. */
  function InitialConversation(question: string): seq<Message> {
    [SystemMessage(SystemPrompt), UserMessage(question)]
  }

  /** The loop of `run_agent` from iteration `i` on, with the conversation,
      the log and the tool state reached so far. */
  function RunFrom<S>(i: nat, maxIterations: int, responses: seq<Response>,
                      invoke: (Tool, Json, S) -> Invoked<S>,
                      conversation: seq<Message>, log: seq<LogEntry>, s: S): Run<S>
    decreases if i < maxIterations then maxIterations - i else 0
  {
    if i >= maxIterations then
      Replied(Reply(StoppedAnswer, log, None), conversation, i, i, s)
    else if i >= |responses| then
      RunRaised("model call failed", i + 1, s)
    else
      var resp := responses[i];
      if |resp.toolCalls| == 0 then
        Replied(Reply(ContentOrEmpty(resp.content), log, resp.totalTokens), conversation, i + 1, i, s)
      else
        match ExecuteToolCalls(resp.toolCalls, invoke, s)
        case ExecutionRaised(e, s1) => RunRaised(e, i + 1, s1)
        case Executed(msgs, logs, s1) =>
          RunFrom(i + 1, maxIterations, responses, invoke,
                  conversation + [AssistantMessage(ContentOrEmpty(resp.content), resp.toolCalls)] + msgs,
                  log + logs, s1)
  }

  /** `run_agent(question, max_iterations)` as a recursive definition. */
  function RunAgentSpec<S>(question: string, maxIterations: int, responses: seq<Response>,
                           invoke: (Tool, Json, S) -> Invoked<S>, s: S): Run<S>
  {
    RunFrom(0, maxIterations, responses, invoke, InitialConversation(question), [], s)
  }

  /** `run_agent(question, max_iterations)`, written as the source's loop;
      it computes exactly the recursive definition. */
  method RunAgent<S>(question: string, maxIterations: int, responses: seq<Response>,
                     invoke: (Tool, Json, S) -> Invoked<S>, s0: S) returns (r: Run<S>)
    ensures r == RunAgentSpec(question, maxIterations, responses, invoke, s0)
  {
    var conversation := InitialConversation(question);
    var log: seq<LogEntry> := [];
    var s := s0;
    var i: nat := 0;
    while i < maxIterations
      invariant RunFrom(i, maxIterations, responses, invoke, conversation, log, s)
                == RunAgentSpec(question, maxIterations, responses, invoke, s0)
      decreases maxIterations - i
    {
      if i >= |responses| {
        return RunRaised("model call failed", i + 1, s);
      }
      var resp := responses[i];
      if |resp.toolCalls| == 0 {
        return Replied(Reply(ContentOrEmpty(resp.content), log, resp.totalTokens), conversation, i + 1, i, s);
      }
      var executed := ExecuteToolCalls(resp.toolCalls, invoke, s);
      if executed.ExecutionRaised? {
        return RunRaised(executed.error, i + 1, executed.state);
      }
      log := log + executed.logs;
      conversation := conversation + [AssistantMessage(ContentOrEmpty(resp.content), resp.toolCalls)]
                      + executed.messages;
      s := executed.state;
      i := i + 1;
    }
    r := Replied(Reply(StoppedAnswer, log, None), conversation, i, i, s);
  }

  // ---------------------------------------------------------------------
  // Properties of the run
  // ---------------------------------------------------------------------

  /** The run's budget: `range(max_iterations)` is empty when it is not
      positive. */
  function Budget(maxIterations: int): nat {
    if maxIterations > 0 then maxIterations else 0
  }

  /** All tool calls of the given responses, in order. */
  function Flatten(rs: seq<Response>): seq<ToolCall>
    decreases |rs|
  {
    if |rs| == 0 then [] else Flatten(rs[..|rs| - 1]) + rs[|rs| - 1].toolCalls
  }

  /** Messages that tool rounds with these responses append: one assistant
      message plus one tool message per call, each round. */
  function Growth(rs: seq<Response>): nat
    decreases |rs|
  {
    if |rs| == 0 then 0 else Growth(rs[..|rs| - 1]) + 1 + |rs[|rs| - 1].toolCalls|
  }

  /** The log records exactly `calls`, one entry per call in the same order,
      with its name and decoded arguments. */
  predicate LogFollows(log: seq<LogEntry>, calls: seq<ToolCall>) {
    && |log| == |calls|
    && forall k :: 0 <= k < |log| ==> log[k].name == calls[k].name && calls[k].arguments == Ok(log[k].args)
  }

  /** The first `n` responses all asked for tools. */
  predicate ToolRoundsOnly(responses: seq<Response>, n: nat)
    requires n <= |responses|
  {
    forall j :: 0 <= j < n ==> |responses[j].toolCalls| > 0
  }

  lemma LogFollowsAppend(a: seq<LogEntry>, x: seq<ToolCall>, b: seq<LogEntry>, y: seq<ToolCall>)
    requires LogFollows(a, x) && LogFollows(b, y)
    ensures LogFollows(a + b, x + y)
  {
    forall k | 0 <= k < |a + b|
      ensures (a + b)[k].name == (x + y)[k].name && (x + y)[k].arguments == Ok((a + b)[k].args)
    {
      if k >= |a| {
        assert (a + b)[k] == b[k - |a|] && (x + y)[k] == y[k - |a|];
      }
    }
  }

  /** The log entries of one executed turn follow its calls. */
  lemma ExecutedLogFollows<S>(calls: seq<ToolCall>, invoke: (Tool, Json, S) -> Invoked<S>, s: S)
    requires ExecuteToolCalls(calls, invoke, s).Executed?
    ensures LogFollows(ExecuteToolCalls(calls, invoke, s).logs, calls)
  {
    var r := ExecuteToolCalls(calls, invoke, s);
    forall k | 0 <= k < |r.logs|
      ensures r.logs[k].name == calls[k].name && calls[k].arguments == Ok(r.logs[k].args)
    {
      assert CallAnswered(calls[k], r.messages[k], r.logs[k]);
    }
  }

  /** Round `j` sits in `conv` where the rounds before it end (the
      conversation started with `start` messages): the assistant message
      carrying that response's content and calls, then one tool message per
      call, in order, with the call's id and name. */
  predicate RoundAt(conv: seq<Message>, start: nat, responses: seq<Response>, j: nat)
    requires j < |responses|
  {
    var at := start + Growth(responses[..j]);
    var calls := responses[j].toolCalls;
    && at + 1 + |calls| <= |conv|
    && conv[at] == AssistantMessage(ContentOrEmpty(responses[j].content), calls)
    && forall k :: 0 <= k < |calls| ==>
         conv[at + 1 + k].ToolMessage? && conv[at + 1 + k].toolCallId == calls[k].id
         && conv[at + 1 + k].name == calls[k].name
  }

  /** The first `n` rounds are all recorded in `conv`. */
  predicate RoundsRecorded(conv: seq<Message>, start: nat, responses: seq<Response>, n: nat)
    requires n <= |responses|
  {
    forall j :: 0 <= j < n ==> RoundAt(conv, start, responses, j)
  }

  /** A recorded round stays recorded when the conversation grows. */
  lemma RoundAtExtends(conv: seq<Message>, more: seq<Message>, start: nat, responses: seq<Response>, j: nat)
    requires j < |responses|
    requires RoundAt(conv, start, responses, j)
    ensures RoundAt(conv + more, start, responses, j)
  {
  }

  /** Appending round `i` (its assistant message, then the tool messages
      answering its calls) to a conversation holding rounds `0..i` records
      round `i` right after them. */
  lemma RoundAppended(conv: seq<Message>, start: nat, responses: seq<Response>, i: nat,
                      msgs: seq<Message>, logs: seq<LogEntry>)
    requires i < |responses|
    requires |conv| == start + Growth(responses[..i])
    requires RoundsRecorded(conv, start, responses, i)
    requires |msgs| == |responses[i].toolCalls| && |logs| == |msgs|
    requires forall k :: 0 <= k < |msgs| ==> CallAnswered(responses[i].toolCalls[k], msgs[k], logs[k])
    ensures RoundsRecorded(conv + [AssistantMessage(ContentOrEmpty(responses[i].content), responses[i].toolCalls)]
                           + msgs, start, responses, i + 1)
  {
    var more := [AssistantMessage(ContentOrEmpty(responses[i].content), responses[i].toolCalls)] + msgs;
    assert conv + [AssistantMessage(ContentOrEmpty(responses[i].content), responses[i].toolCalls)] + msgs
           == conv + more;
    forall j | 0 <= j < i + 1 ensures RoundAt(conv + more, start, responses, j) {
      if j < i {
        RoundAtExtends(conv, more, start, responses, j);
      } else {
        forall k | 0 <= k < |msgs|
          ensures (conv + more)[|conv| + 1 + k] == msgs[k]
        {
        }
      }
    }
  }

  /** What every run from iteration `i` on guarantees, given what the
      iterations before `i` established. */
  ghost predicate RunShape<S>(r: Run<S>, maxIterations: int, responses: seq<Response>, prefix: seq<Message>) {
    && r.modelCalls <= Budget(maxIterations)
    && (r.Replied? ==>
          && r.toolRounds <= |responses|
          && r.toolRounds <= r.modelCalls
          && ToolRoundsOnly(responses, r.toolRounds)
          && LogFollows(r.reply.toolCalls, Flatten(responses[..r.toolRounds]))
          && |r.conversation| == |prefix| + Growth(responses[..r.toolRounds])
          && prefix <= r.conversation
          && RoundsRecorded(r.conversation, |prefix|, responses, r.toolRounds)
          && (r.modelCalls == r.toolRounds ==>
                && r.toolRounds == Budget(maxIterations)
                && r.reply.answer == StoppedAnswer
                && r.reply.totalTokens.None?)
          && (r.modelCalls != r.toolRounds ==>
                && r.modelCalls == r.toolRounds + 1
                && r.toolRounds < |responses|
                && |responses[r.toolRounds].toolCalls| == 0
                && r.reply.answer == ContentOrEmpty(responses[r.toolRounds].content)
                && r.reply.totalTokens == responses[r.toolRounds].totalTokens))
  }

  lemma {:induction false} RunFromShape<S>(i: nat, maxIterations: int, responses: seq<Response>,
                                           invoke: (Tool, Json, S) -> Invoked<S>,
                                           prefix: seq<Message>, conversation: seq<Message>,
                                           log: seq<LogEntry>, s: S)
    requires i <= |responses| && i <= Budget(maxIterations)
    requires prefix <= conversation
    requires |conversation| == |prefix| + Growth(responses[..i])
    requires LogFollows(log, Flatten(responses[..i]))
    requires ToolRoundsOnly(responses, i)
    requires RoundsRecorded(conversation, |prefix|, responses, i)
    ensures RunShape(RunFrom(i, maxIterations, responses, invoke, conversation, log, s),
                     maxIterations, responses, prefix)
    decreases if i < maxIterations then maxIterations - i else 0
  {
    if i < maxIterations && i < |responses| {
      var resp := responses[i];
      if |resp.toolCalls| > 0 {
        var ex := ExecuteToolCalls(resp.toolCalls, invoke, s);
        if ex.Executed? {
          var conversation' := conversation + [AssistantMessage(ContentOrEmpty(resp.content), resp.toolCalls)]
                               + ex.messages;
          assert responses[..i + 1][..i] == responses[..i];
          assert responses[..i + 1][i] == resp;
          assert Flatten(responses[..i + 1]) == Flatten(responses[..i]) + resp.toolCalls;
          assert Growth(responses[..i + 1]) == Growth(responses[..i]) + 1 + |resp.toolCalls|;
          ExecutedLogFollows(resp.toolCalls, invoke, s);
          LogFollowsAppend(log, Flatten(responses[..i]), ex.logs, resp.toolCalls);
          assert prefix <= conversation';
          RoundAppended(conversation, |prefix|, responses, i, ex.messages, ex.logs);
          RunFromShape(i + 1, maxIterations, responses, invoke, prefix, conversation', log + ex.logs, ex.state);
        }
      }
    }
  }

  /** Every run makes at most `max(max_iterations, 0)` model calls. It either
      ends on the first response without tool calls, answering with that
      response's content and token count, or after exactly that many tool
      rounds with the sentinel answer and no token count. Its log records
      every dispatched call of those rounds, in order, and its conversation
      is the system prompt and the question followed by one assistant
      message and one tool message per call for each round. */
  lemma RunAgentShape<S>(question: string, maxIterations: int, responses: seq<Response>,
                         invoke: (Tool, Json, S) -> Invoked<S>, s: S)
    ensures RunShape(RunAgentSpec(question, maxIterations, responses, invoke, s),
                     maxIterations, responses, InitialConversation(question))
  {
    assert responses[..0] == [];
    RunFromShape(0, maxIterations, responses, invoke, InitialConversation(question),
                 InitialConversation(question), [], s);
  }

  /** With no budget the model is never called. */
  lemma NoBudgetNoModelCall<S>(question: string, maxIterations: int, responses: seq<Response>,
                               invoke: (Tool, Json, S) -> Invoked<S>, s: S)
    requires maxIterations <= 0
    ensures RunAgentSpec(question, maxIterations, responses, invoke, s)
            == Replied(Reply(StoppedAnswer, [], None), InitialConversation(question), 0, 0, s)
  {
  }

  /** A first response without tool calls is the answer, after one model
      call and with an empty log. */
  lemma DirectAnswer<S>(question: string, maxIterations: int, responses: seq<Response>,
                        invoke: (Tool, Json, S) -> Invoked<S>, s: S)
    requires maxIterations > 0 && |responses| > 0 && |responses[0].toolCalls| == 0
    ensures RunAgentSpec(question, maxIterations, responses, invoke, s)
            == Replied(Reply(ContentOrEmpty(responses[0].content), [], responses[0].totalTokens),
                       InitialConversation(question), 1, 0, s)
  {
  }

  /** The run raises only through undecodable arguments, a non-container
      result or a failed model call. */
  lemma {:induction false} RunFromCompletes<S>(i: nat, maxIterations: int, responses: seq<Response>,
                                               invoke: (Tool, Json, S) -> Invoked<S>, inv: S -> bool,
                                               conversation: seq<Message>, log: seq<LogEntry>, s: S)
    requires |responses| >= Budget(maxIterations)
    requires forall j :: 0 <= j < |responses| ==> ArgumentsDecoded(responses[j].toolCalls)
    requires forall t: Tool, args: Json, s': S :: inv(s') ==>
               inv(invoke(t, args, s').state) && McpTools.ReturnsContainer(invoke(t, args, s').outcome)
    requires inv(s)
    ensures RunFrom(i, maxIterations, responses, invoke, conversation, log, s).Replied?
    decreases if i < maxIterations then maxIterations - i else 0
  {
    if i < maxIterations && |responses[i].toolCalls| > 0 {
      var resp := responses[i];
      ExecuteToolCallsCompletes(resp.toolCalls, invoke, inv, s);
      var ex := ExecuteToolCalls(resp.toolCalls, invoke, s);
      RunFromCompletes(i + 1, maxIterations, responses, invoke, inv,
                       conversation + [AssistantMessage(ContentOrEmpty(resp.content), resp.toolCalls)] + ex.messages,
                       log + ex.logs, ex.state);
    }
  }

  /** A model that asks for tools on every turn stops the run after exactly
      `max_iterations` model calls, with the sentinel answer, no token
      count, and one log entry per dispatched call. */
  lemma ToolsEveryTurnStops<S>(question: string, maxIterations: int, responses: seq<Response>,
                               invoke: (Tool, Json, S) -> Invoked<S>, inv: S -> bool, s: S)
    requires maxIterations > 0 && |responses| >= maxIterations
    requires ToolRoundsOnly(responses, maxIterations)
    requires forall j :: 0 <= j < |responses| ==> ArgumentsDecoded(responses[j].toolCalls)
    requires forall t: Tool, args: Json, s': S :: inv(s') ==>
               inv(invoke(t, args, s').state) && McpTools.ReturnsContainer(invoke(t, args, s').outcome)
    requires inv(s)
    ensures var r := RunAgentSpec(question, maxIterations, responses, invoke, s);
            && r.Replied?
            && r.modelCalls == maxIterations
            && r.reply.answer == StoppedAnswer
            && r.reply.totalTokens.None?
            && LogFollows(r.reply.toolCalls, Flatten(responses[..maxIterations]))
  {
    RunFromCompletes(0, maxIterations, responses, invoke, inv, InitialConversation(question), [], s);
    RunAgentShape(question, maxIterations, responses, invoke, s);
  }

  // ---------------------------------------------------------------------
  // The concrete tool table
  // ---------------------------------------------------------------------

  /** The one attribute each handler reads from its input. */
  function ToolAttribute(t: Tool): string {
    match t
    case GetApexClassTool => "name"
    case SearchMetadataTool => "q"
    case GetObjectSchemaTool => "object_api_name"
  }

  /** The class-namespace keys `type()` itself interprets. */
  const NamespaceKeys: set<string> := {"__qualname__", "__slots__", "__classcell__"}

  /** The exception `type("X", (), args)` raises while building the class
      for the namespace keys it checks: a `__qualname__` that is not a
      string, then any `__classcell__` (no JSON value is a cell). */
  function NamespaceError(m: map<string, Json>): (r: Option<string>)
    ensures r.Some? <==> ("__qualname__" in m && !m["__qualname__"].JStr?) || "__classcell__" in m
  {
    if "__qualname__" in m && !m["__qualname__"].JStr? then
      Some("type __qualname__ must be a str, not " + TypeName(m["__qualname__"]))
    else if "__classcell__" in m then
      Some("__classcell__ must be a nonlocal cell, not <class '" + TypeName(m["__classcell__"]) + "'>")
    else None
  }

  /** `TOOL_FUNCS[name](args)` at time `now`: the handler receives
      `type("X", (), args)`, a class whose attributes are the argument keys.
      Nothing checks the keys against the advertised schema; only a
      non-dictionary `args` or a namespace key `type()` rejects makes the
      call raise before the handler runs. */
  function CallHandler<H>(b: McpTools.Backend<H>, now: int, t: Tool, args: Json,
                          sv: McpTools.Services<H>): (r: Invoked<McpTools.Services<H>>)
    ensures !args.JObj? ==> r.outcome.Raised? && r.state == sv
    ensures args.JObj? && NamespaceError(args.fields).Some? ==>
              r == Invoked(McpTools.Raised(NamespaceError(args.fields).value), sv)
    ensures args.JObj? && NamespaceError(args.fields).None? ==>
              var h := match t
                case GetApexClassTool => McpTools.GetApexClass(b, now, args.fields, sv)
                case SearchMetadataTool => McpTools.SearchMetadata(b, now, args.fields, sv)
                case GetObjectSchemaTool => McpTools.GetObjectSchema(b, now, args.fields, sv);
              r == Invoked(h.outcome, h.services)
    ensures args.JObj? && ToolAttribute(t) !in args.fields ==> r.outcome.Raised?
    ensures t == SearchMetadataTool ==> r.state.cache == sv.cache
  {
    match args
    case JObj(m) =>
      if NamespaceError(m).Some? then Invoked(McpTools.Raised(NamespaceError(m).value), sv)
      else
        var h := match t
          case GetApexClassTool => McpTools.GetApexClass(b, now, m, sv)
          case SearchMetadataTool => McpTools.SearchMetadata(b, now, m, sv)
          case GetObjectSchemaTool => McpTools.GetObjectSchema(b, now, m, sv);
        Invoked(h.outcome, h.services)
    case _ => Invoked(McpTools.Raised("type.__new__() argument 3 must be dict, not " + TypeName(args)), sv)
  }

  /** The `TOOL_FUNCS` table over the shared services, at time `now`. */
  function ToolFuncs<H>(b: McpTools.Backend<H>, now: int): (Tool, Json, McpTools.Services<H>) -> Invoked<McpTools.Services<H>> {
    (t, args, sv) => CallHandler(b, now, t, args, sv)
  }

  /** Argument keys a handler does not read, other than the namespace keys
      `type()` interprets, change nothing: unknown keys are not rejected. */
  lemma ExtraArgumentIgnored<H>(b: McpTools.Backend<H>, now: int, t: Tool, m: map<string, Json>,
                                 k: string, v: Json, sv: McpTools.Services<H>)
    requires k != ToolAttribute(t) && k !in NamespaceKeys
    requires "__slots__" !in m
    ensures CallHandler(b, now, t, JObj(m[k := v]), sv) == CallHandler(b, now, t, JObj(m), sv)
  {
    var m' := m[k := v];
    assert NamespaceError(m') == NamespaceError(m);
    assert McpTools.Attr(m', ToolAttribute(t)) == McpTools.Attr(m, ToolAttribute(t));
  }

  /** A `__qualname__` argument that is not a string makes `type()` raise:
      the call is answered with that error, logged as failed, and nothing is
      looked up. */
  lemma QualnameMustBeString<H>(b: McpTools.Backend<H>, now: int, id: string, name: string,
                                sv: McpTools.Services<H>)
    ensures var args := JObj(map["name" := JStr(name), "__qualname__" := JInt(5)]);
            ExecuteOne(ToolCall(id, "get_apex_class", Ok(args)), ToolFuncs(b, now), sv)
            == Answered(ToolMessage(id, "get_apex_class", ErrorObj("type __qualname__ must be a str, not int")),
                        LogEntry("get_apex_class", args, false), sv)
  {
    var m := map["name" := JStr(name), "__qualname__" := JInt(5)];
    var msg := "type __qualname__ must be a str, not int";
    assert m["__qualname__"] == JInt(5);
    assert "type __qualname__ must be a str, not " + TypeName(JInt(5)) == msg;
    assert NamespaceError(m) == Some(msg);
    assert ToolFuncs(b, now)(GetApexClassTool, JObj(m), sv) == Invoked(McpTools.Raised(msg), sv);
    assert "error" in ErrorObj(msg).fields;
  }

  /** A call that leaves out the handler's argument is not refused up
      front: the handler runs, its attribute lookup raises, and the call is
      answered with that error (or with the error `type()` raised first)
      and logged as failed. */
  lemma MissingArgumentBecomesError<H>(b: McpTools.Backend<H>, now: int, id: string,
                                       m: map<string, Json>, sv: McpTools.Services<H>)
    requires "name" !in m
    ensures var msg := if NamespaceError(m).Some? then NamespaceError(m).value
                       else "type object 'X' has no attribute 'name'";
            ExecuteOne(ToolCall(id, "get_apex_class", Ok(JObj(m))), ToolFuncs(b, now), sv)
            == Answered(ToolMessage(id, "get_apex_class", ErrorObj(msg)),
                        LogEntry("get_apex_class", JObj(m), false), sv)
  {
    var msg := if NamespaceError(m).Some? then NamespaceError(m).value
               else "type object 'X' has no attribute 'name'";
    if NamespaceError(m).None? {
      assert McpTools.Attr(m, "name") == Err(msg);
      assert McpTools.GetApexClass(b, now, m, sv) == McpTools.Handled(McpTools.Raised(msg), sv);
    }
    assert ToolFuncs(b, now)(GetApexClassTool, JObj(m), sv) == Invoked(McpTools.Raised(msg), sv);
    assert "error" in ErrorObj(msg).fields;
    assert NoErrorKey(ErrorObj(msg)) == Ok(false);
  }

  /** Against a backend whose records and describe answers are containers,
      the tool table keeps every cached value a container and returns only
      containers, so `"error" not in result` never raises. */
  lemma ToolFuncsKeepContainers<H>(b: McpTools.Backend<H>, now: int)
    requires forall h: H, q: string :: b.tooling(h, q).Ok? ==> McpTools.RecordsAreContainers(b.tooling(h, q).value)
    requires forall h: H, p: string :: b.restful(h, p).Ok? ==> IsContainer(b.restful(h, p).value)
    ensures forall t: Tool, args: Json, sv: McpTools.Services<H> :: McpTools.CacheHoldsContainers(sv.cache) ==>
              && McpTools.CacheHoldsContainers(ToolFuncs(b, now)(t, args, sv).state.cache)
              && McpTools.ReturnsContainer(ToolFuncs(b, now)(t, args, sv).outcome)
  {
    forall t: Tool, args: Json, sv: McpTools.Services<H> | McpTools.CacheHoldsContainers(sv.cache)
      ensures && McpTools.CacheHoldsContainers(ToolFuncs(b, now)(t, args, sv).state.cache)
              && McpTools.ReturnsContainer(ToolFuncs(b, now)(t, args, sv).outcome)
    {
      if args.JObj? && NamespaceError(args.fields).None? {
        match t
        case GetApexClassTool => McpTools.GetApexClassKeepsContainers(b, now, args.fields, sv);
        case SearchMetadataTool =>
        case GetObjectSchemaTool => McpTools.GetObjectSchemaKeepsContainers(b, now, args.fields, sv);
      }
    }
  }

  /** With the real handlers, a turn whose arguments all decode always
      completes: an exception in one handler never stops the calls after
      it. */
  lemma HandlersTurnCompletes<H>(b: McpTools.Backend<H>, now: int, calls: seq<ToolCall>, sv: McpTools.Services<H>)
    requires forall h: H, q: string :: b.tooling(h, q).Ok? ==> McpTools.RecordsAreContainers(b.tooling(h, q).value)
    requires forall h: H, p: string :: b.restful(h, p).Ok? ==> IsContainer(b.restful(h, p).value)
    requires McpTools.CacheHoldsContainers(sv.cache)
    requires ArgumentsDecoded(calls)
    ensures ExecuteToolCalls(calls, ToolFuncs(b, now), sv).Executed?
  {
    ToolFuncsKeepContainers(b, now);
    ExecuteToolCallsCompletes(calls, ToolFuncs(b, now),
                              (x: McpTools.Services<H>) => McpTools.CacheHoldsContainers(x.cache), sv);
  }

  /** With the real handlers, a model that asks for tools on every turn
      gets exactly `max_iterations` model calls and then the sentinel
      answer. */
  lemma HandlersEveryTurnStop<H>(b: McpTools.Backend<H>, now: int, question: string, maxIterations: int,
                                 responses: seq<Response>, sv: McpTools.Services<H>)
    requires forall h: H, q: string :: b.tooling(h, q).Ok? ==> McpTools.RecordsAreContainers(b.tooling(h, q).value)
    requires forall h: H, p: string :: b.restful(h, p).Ok? ==> IsContainer(b.restful(h, p).value)
    requires McpTools.CacheHoldsContainers(sv.cache)
    requires maxIterations > 0 && |responses| >= maxIterations
    requires ToolRoundsOnly(responses, maxIterations)
    requires forall j :: 0 <= j < |responses| ==> ArgumentsDecoded(responses[j].toolCalls)
    ensures var r := RunAgentSpec(question, maxIterations, responses, ToolFuncs(b, now), sv);
            && r.Replied?
            && r.modelCalls == maxIterations
            && r.reply.answer == StoppedAnswer
            && r.reply.totalTokens.None?
            && LogFollows(r.reply.toolCalls, Flatten(responses[..maxIterations]))
  {
    ToolFuncsKeepContainers(b, now);
    ToolsEveryTurnStops(question, maxIterations, responses, ToolFuncs(b, now),
                        (x: McpTools.Services<H>) => McpTools.CacheHoldsContainers(x.cache), sv);
  }

  /** One tool round followed by a direct answer: the reply carries the
      second response's content and token count and the first round's log. */
  lemma OneRoundThenAnswer<S>(question: string, maxIterations: int, first: Response, second: Response,
                              invoke: (Tool, Json, S) -> Invoked<S>, s: S)
    requires maxIterations >= 2
    requires |first.toolCalls| > 0 && |second.toolCalls| == 0
    requires ExecuteToolCalls(first.toolCalls, invoke, s).Executed?
    ensures var ex := ExecuteToolCalls(first.toolCalls, invoke, s);
            var r := RunAgentSpec(question, maxIterations, [first, second], invoke, s);
            && r.Replied?
            && r.reply == Reply(ContentOrEmpty(second.content), ex.logs, second.totalTokens)
            && r.modelCalls == 2
            && r.state == ex.state
  {
    var ex := ExecuteToolCalls(first.toolCalls, invoke, s);
    var conversation := InitialConversation(question)
                        + [AssistantMessage(ContentOrEmpty(first.content), first.toolCalls)] + ex.messages;
    assert RunAgentSpec(question, maxIterations, [first, second], invoke, s)
           == RunFrom(1, maxIterations, [first, second], invoke, conversation, [] + ex.logs, ex.state);
    assert [] + ex.logs == ex.logs;
  }

  /** "What does class Foo do?": the model asks for `get_apex_class` with
      name "Foo", the backend has the class, the model then answers; the
      reply carries that answer and one successful log entry. */
  lemma ClassLookupScenario<H>(b: McpTools.Backend<H>, now: int, sv: McpTools.Services<H>,
                               question: string, maxIterations: int, record: Json,
                               summary: string, tokens: Option<int>)
    requires maxIterations >= 2
    requires Auth.Reusable(sv.session, now)
    requires !McpTools.Hit(sv.cache, McpTools.ApexClassKey(JStr("Foo")), now)
    requires record.JObj? && "error" !in record.fields
    requires b.tooling(sv.session.handle.value, McpTools.ApexClassSoql("Foo"))
             == Ok(JObj(map["records" := JArr([record])]))
    ensures var args := JObj(map["name" := JStr("Foo")]);
            var responses := [Response(None, [ToolCall("call_1", "get_apex_class", Ok(args))], None),
                              Response(Some(summary), [], tokens)];
            var r := RunAgentSpec(question, maxIterations, responses, ToolFuncs(b, now), sv);
            && r.Replied?
            && r.reply == Reply(summary, [LogEntry("get_apex_class", args, true)], tokens)
            && r.modelCalls == 2
  {
    var args := JObj(map["name" := JStr("Foo")]);
    var call := ToolCall("call_1", "get_apex_class", Ok(args));
    McpTools.ApexClassMiss(b, now, args.fields, sv, [record]);
    var h := McpTools.GetApexClass(b, now, args.fields, sv);
    assert h.outcome == McpTools.Returned(record);
    assert ToolFuncs(b, now)(GetApexClassTool, args, sv) == Invoked(h.outcome, h.services);
    var step := ExecuteOne(call, ToolFuncs(b, now), sv);
    assert step == Answered(ToolMessage("call_1", "get_apex_class", record),
                            LogEntry("get_apex_class", args, true), h.services);
    assert ExecuteToolCalls([call], ToolFuncs(b, now), sv)
           == Executed([step.message], [step.entry], h.services);
    OneRoundThenAnswer(question, maxIterations, Response(None, [call], None), Response(Some(summary), [], tokens),
                       ToolFuncs(b, now), sv);
  }

  /** `search_metadata(q="Acct")` while the backend cannot be reached: the
      login raises, the call is answered with the error and logged as
      failed, and the run goes on to the model's next response. */
  lemma UnreachableSearchScenario<H>(b: McpTools.Backend<H>, now: int, sv: McpTools.Services<H>,
                                     question: string, maxIterations: int,
                                     answer: string, tokens: Option<int>)
    requires maxIterations >= 2
    requires !Auth.Reusable(sv.session, now)
    requires Auth.ChooseStrategy(b.config) == Auth.PasswordFlow
    requires b.login.password.Err?
    ensures var args := JObj(map["q" := JStr("Acct")]);
            var responses := [Response(None, [ToolCall("call_1", "search_metadata", Ok(args))], None),
                              Response(Some(answer), [], tokens)];
            var r := RunAgentSpec(question, maxIterations, responses, ToolFuncs(b, now), sv);
            && r.Replied?
            && r.reply == Reply(answer, [LogEntry("search_metadata", args, false)], tokens)
            && r.modelCalls == 2
  {
    var args := JObj(map["q" := JStr("Acct")]);
    var call := ToolCall("call_1", "search_metadata", Ok(args));
    var h := McpTools.SearchMetadata(b, now, args.fields, sv);
    var conn := McpTools.Connect(b, now, sv);
    assert conn.client == Err(b.login.password.error);
    assert h.outcome == McpTools.Raised(b.login.password.error);
    assert ToolFuncs(b, now)(SearchMetadataTool, args, sv) == Invoked(h.outcome, h.services);
    var step := ExecuteOne(call, ToolFuncs(b, now), sv);
    assert step == Answered(ToolMessage("call_1", "search_metadata", ErrorObj(b.login.password.error)),
                            LogEntry("search_metadata", args, false), h.services);
    assert ExecuteToolCalls([call], ToolFuncs(b, now), sv)
           == Executed([step.message], [step.entry], h.services);
    OneRoundThenAnswer(question, maxIterations, Response(None, [call], None), Response(Some(answer), [], tokens),
                       ToolFuncs(b, now), sv);
  }
}

=== FILE: tool_cache.dfy ===
/**
 * The process-wide result cache: a map from key to `(value, expiry)` with a
 * default time-to-live. Expiry is checked lazily: a read after the expiry
 * instant misses and removes the entry; nothing else ever evicts.
 * The clock is an integer number of seconds passed in by the caller.
 */
module ToolCache {
  import opened Common

  /** A stored value together with the instant after which it is stale. */
  datatype Entry<V> = Entry(value: V, expiresAt: int)

  datatype Cache<V> = Cache(store: map<string, Entry<V>>, defaultTtl: int)

  /** Default TTL when none is configured. */
  const FallbackTtl: int := 300

  function Empty<V>(defaultTtl: int): Cache<V> {
    Cache(map[], defaultTtl)
  }

  /** The shared cache built at import time from the CACHE_TTL_SECONDS
      setting (absent when `setting` is `None`); a setting `int()` refuses
      raises instead. */
  function FromEnvironment(setting: Option<string>): (r: Result<Cache<Json>>)
    ensures setting.None? ==> r == Ok(Empty(FallbackTtl))
    ensures setting.Some? ==> (r.Ok? <==> IsDecimalLiteral(setting.value))
    ensures r.Ok? ==> r.value.store == map[]
  {
    var raw := if setting.Some? then setting.value else "300";
    assert setting.None? ==> ParseInt(raw) == Ok(300) by {
      if setting.None? {
        assert raw == IntToString(300);
        ParseIntRoundTrip(300);
      }
    }
    match ParseInt(raw)
    case Ok(n) => Ok(Empty(n))
    case Err(e) => Err(e)
  }

  /** Any integer TTL written out in decimal is taken as the default TTL. */
  lemma FromEnvironmentReadsSetting(n: int)
    ensures FromEnvironment(Some(IntToString(n))) == Ok(Empty(n))
  {
    ParseIntRoundTrip(n);
  }

  /** The entries a reader at time `now` can observe: those whose expiry has
      not passed. Expiry is strict, so an entry is still visible at the very
      instant `expiresAt`. */
  function Live<V>(c: Cache<V>, now: int): map<string, V> {
    map k | k in c.store && now <= c.store[k].expiresAt :: c.store[k].value
  }

  /** `a` and `b` hold the same entry (or none) under `k`. */
  predicate SameEntry<V(==)>(a: Cache<V>, b: Cache<V>, k: string) {
    (k in a.store <==> k in b.store) && (k in a.store ==> a.store[k] == b.store[k])
  }

  /** Result of `get`: the value (or `None`) and the cache after the read. */
  datatype Lookup<V> = Lookup(value: Option<V>, cache: Cache<V>)

  /** `TTLCache.get(key)` at time `now`. */
  function Get<V(==)>(c: Cache<V>, key: string, now: int): (r: Lookup<V>)
    ensures r.value == (if key in Live(c, now) then Some(Live(c, now)[key]) else None)
    ensures Live(r.cache, now) == Live(c, now)
    ensures key in c.store && now > c.store[key].expiresAt ==> key !in r.cache.store
    ensures (key !in c.store || now <= c.store[key].expiresAt) ==> r.cache == c
    ensures forall k :: k != key ==> SameEntry(r.cache, c, k)
    ensures r.cache.defaultTtl == c.defaultTtl
  {
    if key !in c.store then Lookup(None, c)
    else if now > c.store[key].expiresAt then Lookup(None, c.(store := c.store - {key}))
    else Lookup(Some(c.store[key].value), c)
  }

  /** `ttl or self._ttl`: an absent or zero TTL falls back to the default. */
  function EffectiveTtl<V>(c: Cache<V>, ttl: Option<int>): int {
    if ttl.None? || ttl.value == 0 then c.defaultTtl else ttl.value
  }

  /** `TTLCache.set(key, value, ttl)` at time `now`. */
  function Set<V(==)>(c: Cache<V>, key: string, value: V, ttl: Option<int>, now: int): (r: Cache<V>)
    ensures key in r.store && r.store[key].value == value
    ensures ttl.None? || ttl == Some(0) ==> r.store[key].expiresAt == now + c.defaultTtl
    ensures ttl.Some? && ttl.value != 0 ==> r.store[key].expiresAt == now + ttl.value
    ensures r.store.Keys == c.store.Keys + {key}
    ensures forall k :: k != key ==> SameEntry(r, c, k)
    ensures r.defaultTtl == c.defaultTtl
  {
    c.(store := c.store[key := Entry(value, now + EffectiveTtl(c, ttl))])
  }

  /** A value just written is read back at any instant up to and including
      its expiry. */
  lemma SetThenGetHit<V>(c: Cache<V>, key: string, value: V, ttl: Option<int>, now: int, t: int)
    requires now <= t <= now + EffectiveTtl(c, ttl)
    ensures var c' := Set(c, key, value, ttl, now);
            Get(c', key, t) == Lookup(Some(value), c')
  {
  }

  /** Read strictly after its expiry, the value misses and is evicted. */
  lemma SetThenGetExpired<V>(c: Cache<V>, key: string, value: V, ttl: Option<int>, now: int, t: int)
    requires t > now + EffectiveTtl(c, ttl)
    ensures var r := Get(Set(c, key, value, ttl, now), key, t);
            r.value.None? && key !in r.cache.store && r.cache.store == c.store - {key}
  {
  }

  /** One call on the cache, with the instant at which it is made. */
  datatype Op<V> =
    | GetOp(key: string, at: int)
    | SetOp(key: string, value: V, ttl: Option<int>, at: int)

  function Apply<V(==)>(c: Cache<V>, op: Op<V>): Cache<V> {
    match op
    case GetOp(k, t) => Get(c, k, t).cache
    case SetOp(k, v, ttl, t) => Set(c, k, v, ttl, t)
  }

  /** The cache after a sequence of calls, in order. */
  function Replay<V(==)>(c: Cache<V>, ops: seq<Op<V>>): Cache<V>
    decreases |ops|
  {
    if |ops| == 0 then c else Replay(Apply(c, ops[0]), ops[1..])
  }

  /** No call in `ops` writes `key`. */
  predicate NoSetOf<V>(ops: seq<Op<V>>, key: string) {
    forall i :: 0 <= i < |ops| ==> !(ops[i].SetOp? && ops[i].key == key)
  }

  /** No call in `ops` is made after `t`. */
  predicate AllAtOrBefore<V>(ops: seq<Op<V>>, t: int) {
    forall i :: 0 <= i < |ops| ==> ops[i].at <= t
  }

  /** Calls that do not write `key` and happen no later than its expiry leave
      its entry exactly as it was. */
  lemma {:induction false} ReplayPreservesEntry<V>(c: Cache<V>, ops: seq<Op<V>>, key: string)
    requires key in c.store
    requires NoSetOf(ops, key)
    requires AllAtOrBefore(ops, c.store[key].expiresAt)
    ensures key in Replay(c, ops).store
    ensures Replay(c, ops).store[key] == c.store[key]
    decreases |ops|
  {
    if |ops| > 0 {
      var c1 := Apply(c, ops[0]);
      assert ops[0].at <= c.store[key].expiresAt;
      assert key in c1.store && c1.store[key] == c.store[key];
      assert NoSetOf(ops[1..], key) by {
        forall i | 0 <= i < |ops[1..]|
          ensures !(ops[1..][i].SetOp? && ops[1..][i].key == key)
        {
          assert ops[1..][i] == ops[i + 1];
        }
      }
      assert AllAtOrBefore(ops[1..], c1.store[key].expiresAt) by {
        forall i | 0 <= i < |ops[1..]|
          ensures ops[1..][i].at <= c1.store[key].expiresAt
        {
          assert ops[1..][i] == ops[i + 1];
        }
      }
      ReplayPreservesEntry(c1, ops[1..], key);
    }
  }

  /** After `set(key, value, ttl)` at `now`, a `get(key)` at any `t` in
      `[now, now + ttl]` returns `value`, whatever other reads and writes
      (none of them writing `key`, none later than `t`) happen in between. */
  lemma ReadBackWithinTtl<V>(c: Cache<V>, key: string, value: V, ttl: Option<int>, now: int,
                             ops: seq<Op<V>>, t: int)
    requires now <= t <= now + EffectiveTtl(c, ttl)
    requires NoSetOf(ops, key)
    requires AllAtOrBefore(ops, t)
    ensures Get(Replay(Set(c, key, value, ttl, now), ops), key, t).value == Some(value)
  {
    var c1 := Set(c, key, value, ttl, now);
    assert AllAtOrBefore(ops, c1.store[key].expiresAt);
    ReplayPreservesEntry(c1, ops, key);
  }
}
